=== FILE: README.md ===
# Clipboard entry store — a Dafny model

This project models the core of a clipboard-history browser extension.

- **Entry store.** Clipboard entries are kept in a flat asynchronous key-value area (`utils/storage.ts`).
  - A local entry's id is the sha256 hex digest of its content.
  - Entries live in *buckets*. A bucket is keyed by the first 8 characters of the id.
  - A *bucket index* lists the prefixes that have a bucket.
  - An *order index* lists the ids in display order.
  - A version token is bumped after every committed change.
  - A one-time *migration* moves a legacy flat list into the buckets.
  - The public operations are `createEntry`, `deleteEntries` and `updateEntryContent`. They cascade into the favourites, the tag map and the command bindings.
- **TTL cleanup** (`background/messages/createTtlAlarm.ts`). Two unit tables, the periodic alarm's options, the selection of expired entries, and the check that re-creates a missing alarm.
- **Cloud settings** (`utils/cloudSettings.ts`). The default and the clamp of the cloud item limit.
- **Storage usage** (`utils/storageUsage.ts`).
  - The local/cloud counts and sizes. A cloud entry is one whose id has the 36 characters of a UUID.
  - The colour, status and score classifiers driven by the measured processing time.
  - The byte formatter.

Each asynchronous function becomes a pure state transformer over one `Store` value. The store has one field per key or key family: buckets, bucket index, order index, legacy slot, version counter, favourites, tag map, command bindings, badge count, and a `migrated` flag. An absent key is `None`.

The following are parameters of the operations:
- The sha256 function is `hash: Hasher`. Its digests are 64 lower-case hex characters, so a digest is never taken for a cloud id (`EntryModel.DigestIsLocal`).
- The clock is `now`.
- The local item limit is `applyLocalItemLimit` from `utils/entries.ts`. That function is not part of this model; it is a `limiter` parameter.
- The outcome of every cloud call.
- The byte size of a content (`SizeOf`) and the per-entry measurement time (`Timing`).

Modules follow the program:

| file | module | contents |
|---|---|---|
| `wrappers.dfy` | `Wrappers` | `Option`, `Result` |
| `seqs.dfy` | `Seqs` | sequence helpers and their lemmas |
| `dedup.dfy` | `OrderDedup` | the order de-duplication |
| `entry.dfy` | `EntryModel` | the entry types |
| `shards.dfy` | `Shards` | store, bucket layer, order index and invariants |
| `migration.dfy` | `Migration` | snapshot writer, migration, `getEntries` |
| `operations.dfy` | `EntryStore` | the public operations |
| `create_properties.dfy`, `delete_properties.dfy`, `update_properties.dfy` | `CreateProperties`, `DeleteProperties`, `UpdateProperties` | properties of the operations |
| `ttl.dfy` | `TtlCleanup` | TTL cleanup |
| `cloud_settings.dfy` | `CloudSettings` | cloud settings |
| `storage_usage.dfy` | `StorageUsage` | storage usage |

The invariant `Shards.Valid` holds between operations. It means:
- every entry sits in the bucket named by its own id's prefix;
- no bucket is empty;
- the index names exactly the stored buckets;
- the order lists every stored id exactly once;
- an empty index or order is absent rather than stored.

It is proved preserved by:
- the migration (`Migration.EnsureMigratedKeepsValid`);
- `_setEntries` (`Migration.SetEntriesHoldsExactly`);
- `deleteEntries` (`DeleteProperties.DeleteKeepsValid`);
- `updateEntryContent` (`UpdateProperties.UpdateKeepsValid`);
- the TTL cleanup (`TtlCleanup.CleanupKeepsValid`);
- `createEntry` without a configured limit, and with a limit only when the limiter keeps exactly the entries it does not skip (`EntryModel.LimiterPartitions`, `CreateProperties.CreateKeepsValid`).

Re-copying stored content only refreshes its `copiedAt`. It does not move the entry to the end of the order (`utils/storage.ts:379-388`). `CreateProperties.CreateRecopy` and `CreateProperties.CopyAThenBThenA` state this: after copying `a`, `b`, `a`, the order is `[hash(a), hash(b)]`.

## Model

| member | source | states |
|---|---|---|
| Shards.KeyNamespaceDisjoint | utils/storage.ts:31-41 | bucket keys of distinct prefixes differ, and no bucket key equals the index, order, version or legacy key, so each key family is an independent field |
| Shards.BucketKey | utils/storage.ts:58 | a bucket key is the bucket family's key prefix followed by the shard, and the shard can be read back from the key |
| Shards.EntryHashPrefixIsPrefix | utils/storage.ts:56 | the shard of an id is its first 8 characters, or the whole id when it is shorter |
| Shards.SameShard | utils/storage.ts:56 | two ids of at least 8 characters share a shard exactly when their first 8 characters agree |
| Shards.IndexReadsBack | utils/storage.ts:60-72 | `getBucketIndex` reads back what `saveBucketIndex` saved, and a removed index key reads as no prefixes |
| Shards.BucketReadsBack | utils/storage.ts:74-77 | `getEntryBucket` reads a stored bucket as stored, and a prefix with no stored bucket as the empty bucket |
| Shards.OrderReadsBack | utils/storage.ts:148-151 | `getEntryOrder` reads a stored order as stored, and a removed order key as the empty order |
| Shards.RecordLookupComplete | utils/storage.ts:202-212 | `entryExists` and `getEntryById` look only in the id's own bucket; in a well-placed store that finds every stored entry, and the record found carries the id |
| Shards.SavedIndex | utils/storage.ts:65-72 | the saved index reads back as the given set, and an empty set is stored as an absent key |
| Shards.PersistBuckets | utils/storage.ts:79-111 | non-empty updates are written and empty ones deleted; other buckets are untouched; the index holds exactly the prefixes of non-empty buckets; the index key changes only when some prefix was added or dropped, and is never stored empty; nothing else changes |
| Shards.PersistBucketsKeepsLayout | utils/storage.ts:79-111 | writing correctly placed buckets keeps every entry in its own prefix bucket, no bucket empty and the index equal to the bucket set |
| Shards.RemoveEntryIdsFromBuckets | utils/storage.ts:120-146 | an id keeps its record exactly when it had one and was not targeted; surviving records are unchanged; only buckets and index change |
| Shards.RemoveKeepsLayout | utils/storage.ts:120-146 | removal keeps the shard layout and index consistent |
| Shards.SetEntryOrder | utils/storage.ts:153-171 | the written order has no duplicates, the same elements as the input, keeps first occurrences in input order, is absent instead of empty, and nothing else changes |
| Shards.SetEntryOrderOfNoDup | utils/storage.ts:153-171 | a duplicate-free order is stored exactly as given |
| OrderDedup.DedupUnique | utils/storage.ts:153-171 | any duplicate-free sequence with the input's elements in first-occurrence order is the de-duplicated order, so the three properties determine it |
| OrderDedup.DedupIdempotent | utils/storage.ts:153-171 | writing the order a second time changes nothing |
| OrderDedup.DedupLoop | utils/storage.ts:154-162 | the loop with a `seen` set yields a duplicate-free order with the input's elements, first occurrences in input order |
| Shards.EntriesByOrder | utils/storage.ts:177-200 | the materialised entries are, in order, the records of exactly those ids of the order that have one; ids without a record are skipped |
| Shards.EntriesByOrderIds | utils/storage.ts:188-197 | in a well-placed store the materialised entries carry exactly the present ids of the order |
| Migration.SnapshotUpdates | utils/storage.ts:222-240 | the updated prefixes are exactly those of the existing index and of the given entries; an update is non-empty exactly for the prefixes of the given entries, and then it is their grouped bucket |
| Shards.GroupByPrefixLastWins | utils/storage.ts:222-233 | every snapshot entry lands in its prefix bucket, and the record under a repeated id is its last occurrence |
| Migration.WriteSnapshotBody | utils/storage.ts:214-249 | the snapshot writes the de-duplicated ids of the entries as the order, sets the badge to its length and bumps the version; favourites, tags, commands and the legacy key are untouched |
| Migration.SnapshotContents | utils/storage.ts:222-245 | after a snapshot the store is valid and holds exactly the given entries, each once, in order, with the last one winning for a repeated id |
| Migration.MigrateLegacyEntries | utils/storage.ts:251-259 | an empty legacy list is only removed; a non-empty one becomes the order; the legacy key is gone either way |
| Migration.MigrationBody | utils/storage.ts:263-276 | an absent legacy key changes nothing and a corrupt one is only removed |
| Migration.EnsureMigrated | utils/storage.ts:261-280 | after the call the migration has run; a second call is a no-op; an absent legacy key changes nothing but the flag; a corrupt one is only removed; favourites are never touched |
| Migration.MigrationRunsOnce | utils/storage.ts:261-280 | one or more awaits of the migration have the effect of exactly one, and no await changes nothing |
| Migration.MigrationOfLegacyList | utils/storage.ts:251-276 | a valid non-empty legacy list ends as the whole collection, each id once in legacy order, and the legacy key is removed |
| Migration.EnsureMigratedKeepsValid | utils/storage.ts:261-280 | the migration keeps a valid store valid |
| Migration.SetEntries | utils/storage.ts:319-321 | writing entries migrates first and leaves exactly their de-duplicated ids as the order |
| Migration.SetEntriesHoldsExactly | utils/storage.ts:319-321 | writing entries over a valid store leaves it valid and holding exactly those entries, the last one winning for a repeated id |
| Migration.GetEntries | utils/storage.ts:298-317 | `getEntries` migrates first and never touches favourites, tags or commands; with a stored order it writes nothing more; with an empty order and no legacy list it returns no entries |
| Migration.GetEntriesOfValid | utils/storage.ts:298-317 | on a valid store, `getEntries` returns each stored entry once, in order-index order, with its stored record, and leaves the store valid |
| EntryStore.DropBindings | utils/storage.ts:458-461 | the tag lists and command bindings of exactly the given ids are dropped; every other id keeps its tag list unchanged; nothing else changes |
| EntryStore.Commit | utils/storage.ts:463-464 | a committed change sets the badge to the order's length and moves the version on |
| EntryStore.AddLocalEntry | utils/storage.ts:373-436 | the local path of `createEntry` on a migrated store leaves the badge equal to the order's length, bumps the version and keeps favourites; the version moves on by exactly one and the legacy key is untouched |
| EntryStore.CreateLocalEntry | utils/storage.ts:371-436 | `createEntry` migrates first, then adds the entry; on a migrated store it is exactly the add |
| EntryStore.CreateEntry | utils/storage.ts:325-371 | a cloud write that succeeds leaves the local store alone; every other case takes the local path |
| EntryStore.ApplyLimit | utils/storage.ts:411-428 | the new order is the kept entries' ids; exactly the skipped ids lose their records, tag lists and command bindings; surviving records and tag lists, the stored order, favourites and every other stored field are unchanged |
| CreateProperties.CreateRecopy | utils/storage.ts:379-388 | re-copying stored content sets only that entry's `copiedAt`; all records, the order, tags, commands and favourites stay; the legacy key is untouched, the badge shows the order length and the version moves on |
| CreateProperties.CreateNewEntry | utils/storage.ts:397-432 | with no limit, new content is stored with `createdAt == copiedAt == now`, every other record stays, and the order is the old order minus the id with the id appended; favourites and the legacy key are untouched |
| CreateProperties.EvictionStage | utils/storage.ts:420-427 | evicting the skipped ids removes exactly their records and keeps the shard layout valid |
| CreateProperties.ApplyLimitStage | utils/storage.ts:411-428 | with a limiter that partitions its input, the layout stays valid and the final order names exactly the ids that still have a record |
| CreateProperties.CreateKeepsValid | utils/storage.ts:371-436 | creating an entry keeps a valid store valid, with or without a limit |
| CreateProperties.CreateTwice | utils/storage.ts:379-407 | copying the same content twice leaves one record, the first `createdAt`, the last `copiedAt`, and the order of the first copy |
| CreateProperties.CopyAThenBThenA | utils/storage.ts:379-407 | copying `a`, `b`, `a` into an empty store gives the order `[hash(a), hash(b)]` and the records `(hash(a), t1, t3, a)` and `(hash(b), t2, t2, b)` |
| EntryStore.DeleteLocalEntries | utils/storage.ts:443-465 | favourites and untargeted ids keep their records and tag lists unchanged; targeted non-favourites lose record, order position and tags; a command binding survives exactly when its id is untargeted or a favourite; all-favourite targets leave the store unchanged; when some target is deletable the badge shows the new order length and the version moves on; the legacy key is never touched |
| EntryStore.RemoveDeletable | utils/storage.ts:452-464 | the deletable ids lose their records, order positions, tag lists and command bindings; every other id keeps its record, order membership and tag list unchanged; the badge shows the new order length, the version moves on and the legacy key is untouched |
| EntryStore.LocalIds | utils/storage.ts:441-443 | the local half of the id split holds exactly the ids not of UUID length, and is the whole list when no id is |
| EntryStore.DeleteEntries | utils/storage.ts:438-472 | after migrating, cloud ids, favourites and untargeted ids keep their records and tag lists unchanged; targeted local non-favourites lose record, order position and tags; a command binding survives exactly when its id is a cloud id, untargeted or a favourite; when some local target is deletable the badge shows the new order length and the version moves on; the legacy key is never touched after the migration |
| DeleteProperties.DeleteOrder | utils/storage.ts:452-456 | deletion keeps the surviving ids in their old relative order and drops exactly the non-favourite targets |
| DeleteProperties.DeleteKeepsValid | utils/storage.ts:438-472 | deletion keeps a valid store valid |
| DeleteProperties.CreateThenDelete | utils/storage.ts:397-465 | deleting a just-created, non-favourite entry restores the records and the order of the store before the copy |
| EntryStore.RenameTags | utils/storage.ts:561-565 | the tag list of the old id moves to the new id; no other id's tags change |
| EntryStore.RenameCommands | utils/storage.ts:574-578 | bindings of the old id point to the new id; all others and all command names are unchanged |
| EntryStore.RenameUpdates | utils/storage.ts:541-552 | the rename writes both the old and the new id's bucket; the new id's bucket holds the updated entry and the old id's bucket no longer holds the old id |
| EntryStore.RenameUpdatesFrame | utils/storage.ts:541-552 | in every bucket the rename writes, every other id's entry is as before |
| EntryStore.UpdateLocalEntryContent | utils/storage.ts:510-585 | stored content for the new id gives `Err("content must be unique")` and no change (the same content included); a missing old id gives `Ok` and no change; otherwise `Ok`; a rename sets the badge to the new order length and moves the version on; the legacy key is never touched after the migration |
| EntryStore.UpdateEntryContent | utils/storage.ts:474-585 | a UUID-length id leaves the local store alone and returns the remote outcome; any other id takes the local path |
| UpdateProperties.UpdateMovesRecord | utils/storage.ts:533-554 | the record moves from the old id to the new one with its timestamps, and every other record stays |
| UpdateProperties.UpdateReplacesInOrder | utils/storage.ts:556-559 | on a consistent order the new id takes the old id's position |
| UpdateProperties.UpdateMovesBindings | utils/storage.ts:561-579 | the favourite flag, the tag list and the command bindings move from the old id to the new one; other ids keep their favourite flag and tag list, and other bindings are unchanged |
| UpdateProperties.UpdateKeepsValid | utils/storage.ts:510-585 | a rename keeps a valid store valid |
| UpdateProperties.UpdateRoundTrip | utils/storage.ts:510-585 | editing an entry to new content and back restores its records and its order, and restores its favourites when the intermediate id was not a favourite; tags and command bindings are not stated |
| TtlCleanup.TimeUnitToMinutes | background/messages/createTtlAlarm.ts:14-20 | every unit is at least one minute, and only `Minutes` is exactly one |
| TtlCleanup.TimeUnitToMilliseconds | background/messages/createTtlAlarm.ts:22-28 | the millisecond table is the minute table times 60000 for every unit |
| TtlCleanup.UnitsIncrease | background/messages/createTtlAlarm.ts:14-28 | a longer unit is longer in both tables |
| TtlCleanup.TtlMilliseconds | background/messages/createTtlAlarm.ts:46 | the TTL in milliseconds is the amount in the unit's minutes times 60000, so the two unit tables agree |
| TtlCleanup.CreateAlarmOptions | background/messages/createTtlAlarm.ts:30-38 | the alarm fires now, and its period in milliseconds is the configured TTL |
| TtlCleanup.CreateTtlAlarm | background/messages/createTtlAlarm.ts:67-72 | an alarm is registered exactly when a config is given, firing now with period minutes times amount |
| TtlCleanup.CheckTtlAlarmState | background/messages/createTtlAlarm.ts:56-65 | an alarm is created exactly when a TTL is configured and none exists |
| TtlCleanup.ExpiredIds | background/messages/createTtlAlarm.ts:46-49 | every expired entry's id is selected and every selected id belongs to an expired entry |
| TtlCleanup.ExpiredIdsAppend | background/messages/createTtlAlarm.ts:47-49 | the selection distributes over concatenation, so it keeps entry order |
| TtlCleanup.RemoveEntriesNonFavorite | background/messages/createTtlAlarm.ts:40-54 | with no TTL nothing changes; otherwise the store ends migrated with favourites untouched |
| TtlCleanup.CleanupRemovesExactlyExpired | background/messages/createTtlAlarm.ts:40-54 | on a valid store an id keeps its record exactly when it is a favourite, a cloud id or not expired, and surviving records are unchanged |
| TtlCleanup.CleanupKeepsValid | background/messages/createTtlAlarm.ts:40-54 | cleanup keeps a valid store valid |
| CloudSettings.ResolveCloudItemLimit | utils/cloudSettings.ts:5-13 | missing settings or a defined limit below 1 give 1000; a limit of at least 1 is kept; undefined or NaN give null; the result is null or at least 1 |
| CloudSettings.ResolveSettles | utils/cloudSettings.ts:5-13 | a resolved numeric limit resolves to itself when stored back |
| CloudSettings.NullResolvesToDefault | utils/cloudSettings.ts:9-10 | a stored `null` compares below 1 and resolves to 1000 |
| StorageUsage.Largest | utils/storageUsage.ts:44 | the largest size bounds every entry's size and is attained, or is 0 for no entries |
| StorageUsage.CountsPartition | utils/storageUsage.ts:47-68 | every entry is counted on exactly one side |
| StorageUsage.CloudCountIsUuidLength | utils/storageUsage.ts:46-51 | the cloud count is the number of entries whose id has 36 characters |
| StorageUsage.EntriesToStorageUsage | utils/storageUsage.ts:23-81 | despite chunking every entry is measured once: the local and cloud sizes and counts equal their per-side sums, the counts add up to the number of entries, total is local plus cloud, the largest size is the maximum, only local entries add time, and the average is 0 with no entries |
| StorageUsage.GetPerformanceColor | utils/storageUsage.ts:83-93 | red exactly above 2000 ms, green exactly at or below 500 ms |
| StorageUsage.GetPerformanceStatus | utils/storageUsage.ts:95-105 | High exactly above 2000 ms, Minimal exactly at or below 500 ms |
| StorageUsage.ClassifiersAgreeAndGrow | utils/storageUsage.ts:83-105 | colour and status give the same level, and the level never falls as the time grows |
| StorageUsage.GetPerformanceScore | utils/storageUsage.ts:107-113 | no summary scores 0; otherwise the score is the time as a fraction of 2000 ms |
| StorageUsage.ScoreMatchesColor | utils/storageUsage.ts:83-113 | a score above 1 is exactly a red summary, and above 0.25 exactly a non-green one |
| StorageUsage.FormatBytesAsWritten | utils/storageUsage.ts:9-21 | sizes up to 0 print `0 Bytes`; otherwise the scaled value is in `[1, 1024)` and a unit is printed only when the index is inside the table |
| StorageUsage.FormatBytesLosesUnit | utils/storageUsage.ts:15-20 | a size of 0.5 bytes gets index -1 and no unit, and so does a size of 1024^5 |
| StorageUsage.UnitIndexUnique | utils/storageUsage.ts:17 | a positive size has a single unit index |
| StorageUsage.FormatBytes | utils/storageUsage.ts:9-21 | the corrected formatter prints `0 Bytes` exactly for sizes up to 0, and always prints a unit from the table |
| StorageUsage.FormatBytesAgrees | utils/storageUsage.ts:9-21 | wherever the program's index is inside the table, the corrected formatter prints what the program prints |

## Findings

| source | as written | input that shows it | evidently intended | confidence | as-written member | corrected member |
|---|---|---|---|---|---|---|
| utils/storageUsage.ts:17-20 | the unit index `floor(log(bytes) / log(1024))` is used unclamped to index a five-entry table | `bytes = 0.5` gives index -1, which prints as `512 undefined`; the average item size of one empty and one one-byte entry is 0.5 | every positive size prints with a unit, so sizes below 1 use `Bytes` and very large ones `TB` | medium, not executed | StorageUsage.FormatBytesAsWritten, StorageUsage.FormatBytesLosesUnit | StorageUsage.FormatBytes, StorageUsage.FormatBytesAgrees |

## Left out

- Cloud paths: the InstantDB queries and transactions, the cloud branch of `createEntry`, the cloud delete and the cloud rename are outside the model. Their outcome is a parameter (`cloudWriteSucceeded`, `cloudOutcome`), and the local store is left alone on those paths.
- `toggleEntryStorageLocation` (`utils/storage.ts:587-693`) is not modelled. Its no-op guards depend on the cloud state, which is outside the model.
- Concurrency: each asynchronous operation is atomic. Races between overlapping calls are not modelled. The memoised migration promise is the `migrated` flag.
- `applyLocalItemLimit` and `handleEntryIds` (`utils/entries.ts`) are not part of this model.
  - The limiter is a parameter. The limiter's eviction policy is not modelled, so the effect of a limit is stated only under the assumption that the limiter partitions its input (`EntryModel.LimiterPartitions`).
  - The id split is modelled by the 36-character convention. The same test decides the cloud path of `updateEntryContent`.
- `CreateProperties.CreateNewEntry` is stated without a configured limit. With a limit, `CreateProperties.ApplyLimitStage` and `CreateProperties.CreateKeepsValid` say what holds, because which entries are evicted depends on the unmodelled policy.
- `UpdateProperties.UpdateReplacesInOrder` is stated for a consistent order. The append-when-missing branch of `utils/storage.ts:556-558` is in `EntryStore.UpdateLocalEntryContent`, but no separate lemma states it.
- `UpdateProperties.UpdateRoundTrip` does not state that tags and command bindings come back. A tag list the intermediate id already held is overwritten and lost, and bindings it already held end up on the entry, so only the records, the order and the favourites are stated.
- Version token: `Date.now()` plus `Math.random()` is modelled as a counter that increases on every commit.
- Badge: the badge count is the last value sent. The message to the background script and `storage.watch` are not modelled.
- sha256 is the `hash` parameter. It is not assumed injective. Lemmas that need two contents to have different ids take `hash(a) != hash(b)` as a hypothesis.
- `Migration.GetEntries`: a legacy value that reappears after the migration and fails validation is treated as absent. The program would read it unchecked.
- The storage-usage measurement is outside the model:
  - `performance.now()` timing is the `Timing` parameter;
  - the `Blob` byte size is the `SizeOf` parameter;
  - yielding to the browser between chunks is not modelled.
- Floating point is outside the model:
  - sizes, times, TTL amounts and the average are exact integers or reals;
  - `Math.log` rounding and the two-decimal `toFixed` formatting of `formatBytes` are not modelled;
  - the printed value is kept exact.
- `StorageUsage.FormatBytesAsWritten` takes the unit index as an argument characterised by `StorageUsage.IsUnitIndex`. It does not compute a logarithm.
- Id lengths and prefixes count Unicode scalar values. The program's `length` and `slice(0, 8)` count UTF-16 code units. The two differ only for non-ASCII ids, and neither hex digests nor UUIDs are such ids.
- The enums `DisplayMode` and `ItemSortOption` are used only by the user interface and are not modelled.

=== FILE: cloud_settings.dfy ===
/** `resolveCloudSettings` (utils/cloudSettings.ts): the cloud item limit a user's settings
    record yields, with its default and its lower clamp. */
module CloudSettings {
  import opened Wrappers

  const DefaultCloudItemLimit: real := 1000.0

  /** The stored `cloudItemLimit` attribute, with the JavaScript values it can take. */
  datatype LimitValue = Undefined | Null | NotANumber | Number(n: real)

  /** A user's cloud settings record, reduced to the attribute read here. */
  datatype CloudSettingsRecord = CloudSettingsRecord(cloudItemLimit: LimitValue)

  /** `value < 1` under JavaScript's comparison: `null` compares as 0, `NaN` never compares. */
  predicate LessThanOne(v: LimitValue) {
    match v
    case Undefined => false
    case Null => true
    case NotANumber => false
    case Number(n) => n < 1.0
  }

  /** `resolveCloudSettings(settings).cloudItemLimit`; `None` is `null`. Missing settings and a
      defined limit below 1 give the default; otherwise a truthy limit is kept and a falsy one
      (undefined, `NaN`) becomes `null`. */
  function ResolveCloudItemLimit(settings: Option<CloudSettingsRecord>): (limit: Option<real>)
    ensures limit.None? || limit.value >= 1.0
    ensures settings.None? ==> limit == Some(DefaultCloudItemLimit)
    ensures settings.Some? && settings.value.cloudItemLimit.Number? ==>
      var n := settings.value.cloudItemLimit.n;
      limit == if n < 1.0 then Some(DefaultCloudItemLimit) else Some(n)
    ensures settings.Some? && settings.value.cloudItemLimit in {Undefined, NotANumber} ==> limit.None?
  {
    if settings.None? then Some(DefaultCloudItemLimit)
    else
      var v := settings.value.cloudItemLimit;
      if v != Undefined && LessThanOne(v) then Some(DefaultCloudItemLimit)
      else
        match v
        case Number(n) => Some(n)
        case _ => None
  }

  /** The stored attribute that a resolved limit reads back as. */
  function Stored(limit: Option<real>): (v: LimitValue)
    ensures limit.None? ==> v == Null
    ensures limit.Some? ==> v == Number(limit.value)
  {
    if limit.None? then Null else Number(limit.value)
  }

  /** A resolved limit that is a number is a fixed point: storing it and resolving again gives
      it back. */
  lemma ResolveSettles(settings: Option<CloudSettingsRecord>)
    ensures var limit := ResolveCloudItemLimit(settings);
      limit.Some? ==> ResolveCloudItemLimit(Some(CloudSettingsRecord(Stored(limit)))) == limit
  {
  }

  /** A stored `null` is not `undefined`: it compares below 1 and so resolves to the default. */
  lemma NullResolvesToDefault()
    ensures ResolveCloudItemLimit(Some(CloudSettingsRecord(Null))) == Some(DefaultCloudItemLimit)
  {
  }
}

=== FILE: create_properties.dfy ===
/** Properties of `createEntry`'s local path. */
module CreateProperties {
  import opened Wrappers
  import opened Seqs
  import opened OrderDedup
  import opened EntryModel
  import opened Shards
  import opened Migration
  import opened EntryStore

  /** Writing one non-empty bucket: ids under that prefix now have records exactly when the new
      bucket holds them; every other id keeps its record. */
  lemma PersistOneBucket(s: Store, p: string, b: Bucket)
    requires b != map[]
    ensures var r := PersistBuckets(s, map[p := b]);
      && (forall x :: EntryHashPrefix(x) == p ==> (HasRecord(r, x) <==> x in b))
      && (forall x :: EntryHashPrefix(x) == p && x in b ==> Lookup(r, x) == b[x])
      && (forall x :: EntryHashPrefix(x) != p ==> (HasRecord(r, x) <==> HasRecord(s, x)))
      && (forall x :: EntryHashPrefix(x) != p && HasRecord(s, x) ==> Lookup(r, x) == Lookup(s, x))
  {
  }

  /** Writing one non-empty, correctly placed bucket keeps the shard layout valid. */
  lemma PersistOneBucketLayout(s: Store, p: string, b: Bucket)
    requires WellPlaced(s) && NoEmptyBuckets(s) && IndexConsistent(s)
    requires b != map[]
    requires forall id :: id in b ==> EntryHashPrefix(id) == p && b[id].id == id
    ensures var r := PersistBuckets(s, map[p := b]);
      WellPlaced(r) && NoEmptyBuckets(r) && IndexConsistent(r)
  {
    PersistBucketsKeepsLayout(s, map[p := b]);
  }

  /** Re-copying stored content refreshes only that entry's `copiedAt`: every record, the set of
      stored ids and the order stay as they were. The entry is not moved to the end. */
  lemma CreateRecopy(s: Store, content: string, hash: Hasher, now: int,
                     localItemLimit: Option<int>, limiter: LocalItemLimiter)
    requires HasRecord(EnsureMigrated(s), hash(content))
    ensures var m := EnsureMigrated(s); var r := CreateLocalEntry(s, content, hash, now, localItemLimit, limiter);
      var id := hash(content);
      && HasRecord(r, id) && Lookup(r, id) == Lookup(m, id).(copiedAt := now)
      && (forall x :: x != id ==> (HasRecord(r, x) <==> HasRecord(m, x)))
      && (forall x :: x != id && HasRecord(m, x) ==> Lookup(r, x) == Lookup(m, x))
      && ReadOrder(r) == ReadOrder(m)
      && r.tags == m.tags && r.commands == m.commands && r.favorites == m.favorites
      && r.legacy == m.legacy && r.migrated && r.badge == |ReadOrder(r)| && r.version == m.version + 1
  {
    var m := EnsureMigrated(s);
    var id := hash(content);
    var p := EntryHashPrefix(id);
    var bucket := ReadBucket(m, p);
    var b := bucket[id := bucket[id].(copiedAt := now)];
    assert id in b;
    assert CreateLocalEntry(s, content, hash, now, localItemLimit, limiter) == Commit(PersistBuckets(m, map[p := b]));
    PersistOneBucket(m, p, b);
  }

  /** The state right after a new entry's bucket is written, before the order is touched. */
  function AfterNewBucket(m: Store, content: string, hash: Hasher, now: int): Store {
    var id := hash(content);
    var p := EntryHashPrefix(id);
    PersistBuckets(m, map[p := ReadBucket(m, p)[id := Entry(id, now, now, content)]])
  }

  /** After the new entry's bucket is written on a valid store, the stored ids are exactly those
      of the old order plus the new id. */
  lemma NewBucketStage(m: Store, content: string, hash: Hasher, now: int)
    requires Valid(m) && !HasRecord(m, hash(content))
    ensures var m1 := AfterNewBucket(m, content, hash, now); var id := hash(content);
      && WellPlaced(m1) && NoEmptyBuckets(m1) && IndexConsistent(m1)
      && (forall x :: HasRecord(m1, x) <==> x in Remove(ReadOrder(m), id) + [id])
      && NoDup(Remove(ReadOrder(m), id) + [id])
  {
    var id := hash(content);
    var p := EntryHashPrefix(id);
    var b := ReadBucket(m, p)[id := Entry(id, now, now, content)];
    assert id in b;
    var m1 := AfterNewBucket(m, content, hash, now);
    assert m1 == PersistBuckets(m, map[p := b]);
    UpdatedBucketPlaced(m, Entry(id, now, now, content));
    PersistOneBucketLayout(m, p, b);
    NewBucketRecords(m, content, hash, now);
    AppendNoDup(Remove(ReadOrder(m), id), id);
  }

  /** The records right after a new entry's bucket is written. */
  lemma NewBucketRecords(m: Store, content: string, hash: Hasher, now: int)
    requires OrderConsistent(m) && !HasRecord(m, hash(content))
    ensures var m1 := AfterNewBucket(m, content, hash, now); var id := hash(content);
      forall x :: HasRecord(m1, x) <==> x in Remove(ReadOrder(m), id) + [id]
  {
    var id := hash(content);
    var p := EntryHashPrefix(id);
    var b := ReadBucket(m, p)[id := Entry(id, now, now, content)];
    assert id in b;
    PersistOneBucket(m, p, b);
    var m1 := AfterNewBucket(m, content, hash, now);
    forall x ensures HasRecord(m1, x) <==> x in Remove(ReadOrder(m), id) + [id] {
      if x != id {
        assert HasRecord(m1, x) <==> HasRecord(m, x);
      }
    }
  }

  /** Right after the new entry's bucket is written: the new record is there and every other
      record is untouched. */
  lemma NewBucketEffect(m: Store, content: string, hash: Hasher, now: int)
    ensures var m1 := AfterNewBucket(m, content, hash, now); var id := hash(content);
      && HasRecord(m1, id) && Lookup(m1, id) == Entry(id, now, now, content)
      && (forall x :: x != id ==> (HasRecord(m1, x) <==> HasRecord(m, x)))
      && (forall x :: x != id && HasRecord(m, x) ==> Lookup(m1, x) == Lookup(m, x))
      && m1 == m.(buckets := m1.buckets, index := m1.index)
  {
    var id := hash(content);
    var p := EntryHashPrefix(id);
    var b := ReadBucket(m, p)[id := Entry(id, now, now, content)];
    assert id in b;
    PersistOneBucket(m, p, b);
  }

  /** New content, no limit configured: the entry is stored with `createdAt == copiedAt == now`,
      every other record is untouched, and the order is the old order with the id moved to the end. */
  lemma CreateNewEntry(s: Store, content: string, hash: Hasher, now: int, limiter: LocalItemLimiter)
    requires !HasRecord(EnsureMigrated(s), hash(content))
    ensures var m := EnsureMigrated(s); var r := CreateLocalEntry(s, content, hash, now, None, limiter);
      var id := hash(content);
      && HasRecord(r, id) && Lookup(r, id) == Entry(id, now, now, content)
      && (forall x :: x != id ==> (HasRecord(r, x) <==> HasRecord(m, x)))
      && (forall x :: x != id && HasRecord(m, x) ==> Lookup(r, x) == Lookup(m, x))
      && ReadOrder(r) == Dedup(Remove(ReadOrder(m), id) + [id])
      && (NoDup(ReadOrder(m)) ==> ReadOrder(r) == Remove(ReadOrder(m), id) + [id])
      && r.tags == m.tags && r.commands == m.commands
      && r.favorites == m.favorites && r.legacy == m.legacy
  {
    var m := EnsureMigrated(s);
    var id := hash(content);
    var m1 := AfterNewBucket(m, content, hash, now);
    var initialOrder := Remove(ReadOrder(m), id) + [id];
    var r := CreateLocalEntry(s, content, hash, now, None, limiter);
    assert r == Commit(SetEntryOrder(m1, initialOrder));
    NewBucketEffect(m, content, hash, now);
    SameFieldsRecords(m1, r);
    if NoDup(ReadOrder(m)) {
      AppendNoDup(Remove(ReadOrder(m), id), id);
      DedupOfNoDup(initialOrder);
    }
  }

  /** The ids a partitioning limiter keeps are the ids of its input that it did not skip. */
  lemma KeptIds(entries: seq<Entry>, kept: seq<Entry>, skipped: seq<string>)
    requires forall e :: e in kept ==> e in entries
    requires forall e :: e in entries ==> (e in kept <==> e.id !in skipped)
    ensures forall x :: x in Ids(kept) <==> x in Ids(entries) && x !in skipped
  {
    forall x ensures x in Ids(kept) <==> x in Ids(entries) && x !in skipped {
      if x in Ids(kept) {
        var k :| 0 <= k < |kept| && Ids(kept)[k] == x;
        assert kept[k] in entries;
        var i :| 0 <= i < |entries| && entries[i] == kept[k];
        assert Ids(entries)[i] == x;
      }
      if x in Ids(entries) && x !in skipped {
        var i :| 0 <= i < |entries| && Ids(entries)[i] == x;
        assert entries[i] in kept;
        var j :| 0 <= j < |kept| && kept[j] == entries[i];
        assert Ids(kept)[j] == x;
      }
    }
  }

  /** What a partitioning limiter promises about one call. */
  lemma LimiterCall(limiter: LocalItemLimiter, entries: seq<Entry>, limit: int, favorites: seq<string>)
    requires LimiterPartitions(limiter)
    ensures var (kept, skipped) := limiter(entries, limit, favorites);
      forall x :: x in Ids(kept) <==> x in Ids(entries) && x !in skipped
  {
    var (kept, skipped) := limiter(entries, limit, favorites);
    KeptIds(entries, kept, skipped);
  }

  /** Evicting the skipped ids: records go exactly for the skipped ids, and the layout stays valid. */
  lemma EvictionStage(m1: Store, skipped: seq<string>)
    requires WellPlaced(m1) && NoEmptyBuckets(m1) && IndexConsistent(m1)
    ensures var m2 := if |skipped| > 0 then DropBindings(RemoveEntryIdsFromBuckets(m1, skipped), skipped) else m1;
      && WellPlaced(m2) && NoEmptyBuckets(m2) && IndexConsistent(m2)
      && (forall x :: HasRecord(m2, x) <==> HasRecord(m1, x) && x !in skipped)
  {
    if |skipped| > 0 {
      var m0 := RemoveEntryIdsFromBuckets(m1, skipped);
      RemoveKeepsLayout(m1, skipped);
      var m2 := DropBindings(m0, skipped);
      SameFieldsRecords(m0, m2);
    }
  }

  /** With a limiter that partitions its input, limiting a store whose records are exactly the
      ids of `initialOrder` leaves records exactly for the kept ids, in a valid layout. */
  lemma ApplyLimitStage(m1: Store, initialOrder: seq<string>, limit: int, favorites: seq<string>,
                        limiter: LocalItemLimiter)
    requires WellPlaced(m1) && NoEmptyBuckets(m1) && IndexConsistent(m1)
    requires forall x :: HasRecord(m1, x) <==> x in initialOrder
    requires LimiterPartitions(limiter)
    ensures var (m2, finalOrder) := ApplyLimit(m1, initialOrder, limit, favorites, limiter);
      && WellPlaced(m2) && NoEmptyBuckets(m2) && IndexConsistent(m2)
      && (forall x :: HasRecord(m2, x) <==> x in finalOrder)
  {
    var entries := EntriesByOrder(m1, initialOrder);
    EntriesByOrderIds(m1, initialOrder);
    FilterAll(id => HasRecord(m1, id), initialOrder);
    LimiterCall(limiter, entries, limit, favorites);
    var (kept, skipped) := limiter(entries, limit, favorites);
    EvictionStage(m1, skipped);
  }

  /** A re-copy keeps a valid store valid. */
  lemma RecopyKeepsValid(s: Store, content: string, hash: Hasher, now: int,
                         localItemLimit: Option<int>, limiter: LocalItemLimiter)
    requires Valid(EnsureMigrated(s)) && HasRecord(EnsureMigrated(s), hash(content))
    ensures Valid(CreateLocalEntry(s, content, hash, now, localItemLimit, limiter))
  {
    var m := EnsureMigrated(s);
    var id := hash(content);
    CreateRecopy(s, content, hash, now, localItemLimit, limiter);
    var p := EntryHashPrefix(id);
    var bucket := ReadBucket(m, p);
    var b := bucket[id := bucket[id].(copiedAt := now)];
    assert id in b && bucket[id].id == id;
    UpdatedBucketPlaced(m, bucket[id].(copiedAt := now));
    PersistOneBucketLayout(m, p, b);
  }

  /** Setting the order to exactly the stored ids and committing yields a valid store. */
  lemma CommitOrderValid(m2: Store, order: seq<string>)
    requires WellPlaced(m2) && NoEmptyBuckets(m2) && IndexConsistent(m2)
    requires forall x :: HasRecord(m2, x) <==> x in order
    ensures Valid(Commit(SetEntryOrder(m2, order)))
  {
    var o := SetEntryOrder(m2, order);
    SameFieldsRecords(m2, o);
    assert OrderConsistent(o);
    SameFieldsValid(o, Commit(o));
  }

  /** New content keeps a valid store valid. */
  lemma NewEntryKeepsValid(s: Store, content: string, hash: Hasher, now: int,
                           localItemLimit: Option<int>, limiter: LocalItemLimiter)
    requires Valid(EnsureMigrated(s)) && !HasRecord(EnsureMigrated(s), hash(content))
    requires localItemLimit.Some? ==> LimiterPartitions(limiter)
    ensures Valid(CreateLocalEntry(s, content, hash, now, localItemLimit, limiter))
  {
    var m := EnsureMigrated(s);
    var id := hash(content);
    NewBucketStage(m, content, hash, now);
    var m1 := AfterNewBucket(m, content, hash, now);
    var initialOrder := Remove(ReadOrder(m), id) + [id];
    var r := CreateLocalEntry(s, content, hash, now, localItemLimit, limiter);
    if localItemLimit.Some? {
      var (m2, finalOrder) := ApplyLimit(m1, initialOrder, localItemLimit.value, m.favorites, limiter);
      assert r == Commit(SetEntryOrder(m2, finalOrder));
      ApplyLimitStage(m1, initialOrder, localItemLimit.value, m.favorites, limiter);
      CommitOrderValid(m2, finalOrder);
    } else {
      assert r == Commit(SetEntryOrder(m1, initialOrder));
      CommitOrderValid(m1, initialOrder);
    }
  }

  /** `createEntry` keeps a valid store valid, whatever the limit, provided the limiter keeps
      exactly the entries it does not skip. */
  lemma CreateKeepsValid(s: Store, content: string, hash: Hasher, now: int,
                         localItemLimit: Option<int>, limiter: LocalItemLimiter)
    requires Valid(s)
    requires localItemLimit.Some? ==> LimiterPartitions(limiter)
    ensures Valid(CreateLocalEntry(s, content, hash, now, localItemLimit, limiter))
  {
    EnsureMigratedKeepsValid(s);
    if HasRecord(EnsureMigrated(s), hash(content)) {
      RecopyKeepsValid(s, content, hash, now, localItemLimit, limiter);
    } else {
      NewEntryKeepsValid(s, content, hash, now, localItemLimit, limiter);
    }
  }

  /** Copying the same content twice leaves one record: the second copy keeps `createdAt` from
      the first and advances `copiedAt`; the stored ids and the order are those after the first. */
  lemma CreateTwice(s: Store, content: string, hash: Hasher, t1: int, t2: int, limiter: LocalItemLimiter)
    ensures var r1 := CreateLocalEntry(s, content, hash, t1, None, limiter);
      var r2 := CreateLocalEntry(r1, content, hash, t2, None, limiter);
      var id := hash(content);
      && HasRecord(r1, id) && HasRecord(r2, id)
      && Lookup(r2, id) == Lookup(r1, id).(copiedAt := t2)
      && Lookup(r2, id).createdAt == Lookup(r1, id).createdAt
      && (forall x :: HasRecord(r2, x) <==> HasRecord(r1, x))
      && ReadOrder(r2) == ReadOrder(r1)
  {
    var m := EnsureMigrated(s);
    var id := hash(content);
    var r1 := CreateLocalEntry(s, content, hash, t1, None, limiter);
    if HasRecord(m, id) {
      CreateRecopy(s, content, hash, t1, None, limiter);
    } else {
      CreateNewEntry(s, content, hash, t1, limiter);
    }
    assert EnsureMigrated(r1) == r1;
    CreateRecopy(r1, content, hash, t2, None, limiter);
  }

  /** `r2` is `r` with entry `e` added: a new record for it, appended to the order, and every
      other record as it was. */
  ghost predicate AppendedEntry(r: Store, r2: Store, e: Entry) {
    && r2.migrated
    && ReadOrder(r2) == ReadOrder(r) + [e.id]
    && HasRecord(r2, e.id) && Lookup(r2, e.id) == e
    && (forall x :: x != e.id ==> (HasRecord(r2, x) <==> HasRecord(r, x)))
    && (forall x :: x != e.id && HasRecord(r, x) ==> Lookup(r2, x) == Lookup(r, x))
  }

  /** New content copied into a migrated store whose order is duplicate-free lands at the end of
      the order. */
  lemma AppendStep(r: Store, content: string, hash: Hasher, now: int, limiter: LocalItemLimiter)
    requires r.migrated && !HasRecord(r, hash(content))
    requires NoDup(ReadOrder(r)) && hash(content) !in ReadOrder(r)
    ensures AppendedEntry(r, AddLocalEntry(r, content, hash, now, None, limiter),
                          Entry(hash(content), now, now, content))
  {
    CreateNewEntry(r, content, hash, now, limiter);
  }

  /** Stored content copied again into a migrated store: only its `copiedAt` moves. */
  lemma RecopyStep(r: Store, content: string, hash: Hasher, now: int, limiter: LocalItemLimiter)
    requires r.migrated && HasRecord(r, hash(content))
    ensures var r2 := AddLocalEntry(r, content, hash, now, None, limiter); var id := hash(content);
      && ReadOrder(r2) == ReadOrder(r)
      && HasRecord(r2, id) && Lookup(r2, id) == Lookup(r, id).(copiedAt := now)
      && (forall x :: x != id ==> (HasRecord(r2, x) <==> HasRecord(r, x)))
      && (forall x :: x != id && HasRecord(r, x) ==> Lookup(r2, x) == Lookup(r, x))
  {
    CreateRecopy(r, content, hash, now, None, limiter);
  }

  /** The first copy into an empty migrated store: its entry is the only one. */
  lemma FirstCopy(s: Store, a: string, hash: Hasher, t1: int, limiter: LocalItemLimiter)
    requires s.migrated && ReadOrder(s) == [] && forall x :: !HasRecord(s, x)
    ensures var r1 := AddLocalEntry(s, a, hash, t1, None, limiter);
      && r1.migrated && ReadOrder(r1) == [hash(a)]
      && (forall x :: HasRecord(r1, x) <==> x == hash(a))
      && Lookup(r1, hash(a)) == Entry(hash(a), t1, t1, a)
  {
    AppendStep(s, a, hash, t1, limiter);
  }

  /** A second, different content copied after the first: it follows the first in the order. */
  lemma SecondCopy(r1: Store, e: Entry, b: string, hash: Hasher, t2: int, limiter: LocalItemLimiter)
    requires r1.migrated && ReadOrder(r1) == [e.id] && forall x :: HasRecord(r1, x) <==> x == e.id
    requires Lookup(r1, e.id) == e && e.id != hash(b)
    ensures var r2 := AddLocalEntry(r1, b, hash, t2, None, limiter);
      && r2.migrated && ReadOrder(r2) == [e.id, hash(b)]
      && (forall x :: HasRecord(r2, x) <==> x == e.id || x == hash(b))
      && Lookup(r2, e.id) == e && Lookup(r2, hash(b)) == Entry(hash(b), t2, t2, b)
  {
    AppendStep(r1, b, hash, t2, limiter);
  }

  /** Copying `a`, then `b`, into an empty migrated store: both are stored, `a` first. */
  lemma CopyAThenB(s: Store, a: string, b: string, hash: Hasher, t1: int, t2: int, limiter: LocalItemLimiter)
    requires s.migrated && ReadOrder(s) == [] && forall x :: !HasRecord(s, x)
    requires hash(a) != hash(b)
    ensures var r2 := AddLocalEntry(AddLocalEntry(s, a, hash, t1, None, limiter), b, hash, t2, None, limiter);
      && r2.migrated && ReadOrder(r2) == [hash(a), hash(b)]
      && (forall x :: HasRecord(r2, x) <==> x == hash(a) || x == hash(b))
      && Lookup(r2, hash(a)) == Entry(hash(a), t1, t1, a)
      && Lookup(r2, hash(b)) == Entry(hash(b), t2, t2, b)
  {
    FirstCopy(s, a, hash, t1, limiter);
    SecondCopy(AddLocalEntry(s, a, hash, t1, None, limiter), Entry(hash(a), t1, t1, a), b, hash, t2, limiter);
  }

  /** Copying `a`, then `b`, then `a` again into an empty migrated store leaves the order
      `[hash(a), hash(b)]`: the re-copy of `a` does not move it to the end. Its record keeps the
      first `createdAt` and carries the last `copiedAt`. */
  lemma CopyAThenBThenA(s: Store, a: string, b: string, hash: Hasher, t1: int, t2: int, t3: int,
                        limiter: LocalItemLimiter)
    requires s.migrated && ReadOrder(s) == [] && forall x :: !HasRecord(s, x)
    requires hash(a) != hash(b)
    ensures var r2 := AddLocalEntry(AddLocalEntry(s, a, hash, t1, None, limiter), b, hash, t2, None, limiter);
      var r3 := AddLocalEntry(r2, a, hash, t3, None, limiter);
      && ReadOrder(r3) == [hash(a), hash(b)]
      && (forall x :: HasRecord(r3, x) <==> x == hash(a) || x == hash(b))
      && Lookup(r3, hash(a)) == Entry(hash(a), t1, t3, a)
      && Lookup(r3, hash(b)) == Entry(hash(b), t2, t2, b)
  {
    CopyAThenB(s, a, b, hash, t1, t2, limiter);
    var r2 := AddLocalEntry(AddLocalEntry(s, a, hash, t1, None, limiter), b, hash, t2, None, limiter);
    RecopyStep(r2, a, hash, t3, limiter);
  }
}

=== FILE: dedup.dfy ===
/** The order index keeps each entry id once. Writing the index walks the requested order
    left to right with a `seen` set and keeps only the first occurrence of every id
    (utils/storage.ts, `setEntryOrder`). */
module OrderDedup {
  import opened Seqs

  /** `r` lists elements of `xs` in the order of their first occurrence in `xs`. */
  ghost predicate InFirstOccurrenceOrder<T>(xs: seq<T>, r: seq<T>) {
    && (forall k :: 0 <= k < |r| ==> r[k] in xs)
    && (forall i, j :: 0 <= i < j < |r| ==> IndexOf(xs, r[i]) < IndexOf(xs, r[j]))
  }

  /** First occurrences of `xs`, in order. */
  function Dedup<T(==,!new)>(xs: seq<T>): (r: seq<T>)
    ensures NoDup(r)
    ensures forall x :: x in r <==> x in xs
    ensures |r| <= |xs|
  {
    if |xs| == 0 then []
    else
      var d := Dedup(xs[..|xs| - 1]);
      if xs[|xs| - 1] in d then d else d + [xs[|xs| - 1]]
  }

  /** `Dedup` keeps the order of first occurrences. */
  lemma {:induction false} DedupFirstOccurrence<T(!new)>(xs: seq<T>)
    ensures InFirstOccurrenceOrder(xs, Dedup(xs))
  {
    if |xs| > 0 {
      var init := xs[..|xs| - 1];
      DedupFirstOccurrence(init);
      IndexOfExtend(init, xs[|xs| - 1]);
      assert init + [xs[|xs| - 1]] == xs;
    }
  }

  /** Appending an element does not move the first occurrence of anything already present,
      and the first occurrence of a new element is the last position. */
  lemma IndexOfExtend<T(!new)>(xs: seq<T>, y: T)
    ensures forall x :: x in xs ==> IndexOf(xs + [y], x) == IndexOf(xs, x)
    ensures y !in xs ==> IndexOf(xs + [y], y) == |xs|
  {
    forall x | x in xs
      ensures IndexOf(xs + [y], x) == IndexOf(xs, x)
    {
      IndexOfPrefix(xs + [y], |xs|, x);
      assert (xs + [y])[..|xs|] == xs;
    }
  }

  /** The first occurrence of an element found in a prefix is in that prefix. */
  lemma {:induction false} IndexOfPrefix<T(!new)>(xs: seq<T>, n: nat, x: T)
    requires n <= |xs| && x in xs[..n]
    ensures IndexOf(xs, x) == IndexOf(xs[..n], x)
  {
    if xs[0] != x {
      assert xs[1..][..n - 1] == xs[..n][1..];
      IndexOfPrefix(xs[1..], n - 1, x);
    }
  }

  /** A duplicate-free order is written back unchanged. */
  lemma {:induction false} DedupOfNoDup<T(!new)>(xs: seq<T>)
    requires NoDup(xs)
    ensures Dedup(xs) == xs
  {
    if |xs| > 0 {
      var init := xs[..|xs| - 1];
      assert NoDup(init);
      DedupOfNoDup(init);
      assert xs[|xs| - 1] !in init;
      assert init + [xs[|xs| - 1]] == xs;
    }
  }

  /** Writing the order twice changes nothing the second time. */
  lemma DedupIdempotent<T(!new)>(xs: seq<T>)
    ensures Dedup(Dedup(xs)) == Dedup(xs)
  {
    DedupOfNoDup(Dedup(xs));
  }

  /** The three properties of `Dedup` pin its result down: any duplicate-free sequence with the
      same elements, listed in first-occurrence order, is `Dedup(xs)`. */
  lemma {:induction false} DedupUnique<T(!new)>(xs: seq<T>, r: seq<T>)
    requires NoDup(r)
    requires forall x :: x in r <==> x in xs
    requires InFirstOccurrenceOrder(xs, r)
    ensures r == Dedup(xs)
  {
    var d := Dedup(xs);
    DedupFirstOccurrence(xs);
    // Both sequences are sorted by first index and hold the same set: compare position by position.
    SameSetNoDupSameLength(r, d);
    forall k | 0 <= k < |r|
      ensures r[k] == d[k]
    {
      SortedSamePosition(xs, r, d, k);
    }
  }

  /** Two duplicate-free sequences with the same elements have the same length. */
  lemma SameSetNoDupSameLength<T(!new)>(a: seq<T>, b: seq<T>)
    requires NoDup(a) && NoDup(b)
    requires forall x :: x in a <==> x in b
    ensures |a| == |b|
  {
    DistinctCard(a);
    DistinctCard(b);
    assert Elements(a) == Elements(b);
  }

  /** A duplicate-free sequence has as many elements as its set. */
  lemma {:induction false} DistinctCard<T(!new)>(a: seq<T>)
    requires NoDup(a)
    ensures |Elements(a)| == |a|
  {
    if |a| > 0 {
      var init := a[..|a| - 1];
      assert NoDup(init);
      DistinctCard(init);
      assert Elements(a) == Elements(init) + {a[|a| - 1]};
      assert a[|a| - 1] !in Elements(init);
    }
  }

  /** In two sequences sorted by first index over the same elements, position `k` holds the same element. */
  lemma SortedSamePosition<T(!new)>(xs: seq<T>, r: seq<T>, d: seq<T>, k: nat)
    requires |r| == |d| && k < |r|
    requires NoDup(r) && NoDup(d)
    requires forall x :: x in r <==> x in d
    requires InFirstOccurrenceOrder(xs, r) && InFirstOccurrenceOrder(xs, d)
    ensures r[k] == d[k]
  {
    // The elements before position k in either sequence are exactly those whose first index
    // is smaller than that of the element at k.
    var below := CountBelow(xs, r, IndexOf(xs, r[k]));
    RankInSorted(xs, r, k);
    var j := PositionOf(d, r[k]);
    RankInSorted(xs, d, j);
    SameCountBelow(xs, r, d, IndexOf(xs, r[k]));
    assert k == j;
  }

  /** Position of `x` in `d`. */
  function PositionOf<T(==)>(d: seq<T>, x: T): (j: nat)
    requires x in d
    ensures j < |d| && d[j] == x
  {
    IndexOf(d, x)
  }

  /** The elements of `r` whose first index in `xs` is below `bound`. */
  ghost function CountBelow<T(!new)>(xs: seq<T>, r: seq<T>, bound: int): set<T>
    requires forall k :: 0 <= k < |r| ==> r[k] in xs
  {
    set x | x in r && IndexOf(xs, x) < bound
  }

  /** In a sorted duplicate-free sequence, the elements below position k are those with smaller index. */
  lemma RankInSorted<T(!new)>(xs: seq<T>, r: seq<T>, k: nat)
    requires k < |r| && NoDup(r) && InFirstOccurrenceOrder(xs, r)
    ensures |CountBelow(xs, r, IndexOf(xs, r[k]))| == k
  {
    var s := CountBelow(xs, r, IndexOf(xs, r[k]));
    assert s == Elements(r[..k]) by {
      forall x | x in s ensures x in r[..k] {
        var i := IndexOf(r, x);
        assert i < k;
      }
      forall x | x in r[..k] ensures x in s {
        var i := IndexOf(r[..k], x);
        assert r[i] == x;
      }
    }
    assert NoDup(r[..k]);
    DistinctCard(r[..k]);
  }

  /** Sequences with the same elements have the same elements below any bound. */
  lemma SameCountBelow<T(!new)>(xs: seq<T>, r: seq<T>, d: seq<T>, bound: int)
    requires forall x :: x in r <==> x in d
    requires InFirstOccurrenceOrder(xs, r) && InFirstOccurrenceOrder(xs, d)
    ensures CountBelow(xs, r, bound) == CountBelow(xs, d, bound)
  {
  }

  /** The loop of `setEntryOrder`: keep an id the first time it is seen. */
  method DedupLoop<T(==,!new)>(order: seq<T>) returns (deduped: seq<T>)
    ensures NoDup(deduped)
    ensures forall x :: x in deduped <==> x in order
    ensures InFirstOccurrenceOrder(order, deduped)
  {
    DedupFirstOccurrence(order);
    deduped := [];
    var seen: set<T> := {};
    for i := 0 to |order|
      invariant deduped == Dedup(order[..i])
      invariant forall x :: x in seen <==> x in deduped
    {
      assert order[..i + 1] == order[..i] + [order[i]];
      if order[i] !in seen {
        seen := seen + {order[i]};
        deduped := deduped + [order[i]];
      }
    }
    assert order[..|order|] == order;
  }
}

=== FILE: delete_properties.dfy ===
/** Properties of `deleteEntries`' local path. */
module DeleteProperties {
  import opened Wrappers
  import opened Seqs
  import opened EntryModel
  import opened Shards
  import opened Migration
  import opened EntryStore
  import opened CreateProperties

  /** On a duplicate-free order, deletion keeps the surviving ids in their old relative order and
      drops exactly the non-favourite targets. */
  lemma DeleteOrder(s: Store, localIds: seq<string>)
    requires NoDup(ReadOrder(s))
    ensures var r := DeleteLocalEntries(s, localIds);
      && ReadOrder(r) == Without(ReadOrder(s), Without(localIds, s.favorites))
      && (forall x :: x in ReadOrder(r) <==> x in ReadOrder(s) && (x !in localIds || x in s.favorites))
  {
    var deletable := Without(localIds, s.favorites);
    if |deletable| > 0 {
      var s1 := RemoveEntryIdsFromBuckets(s, deletable);
      SetEntryOrderOfNoDup(s1, Without(ReadOrder(s1), deletable));
    }
  }

  /** Deletion keeps a valid store valid. */
  lemma DeleteLocalKeepsValid(s: Store, localIds: seq<string>)
    requires Valid(s)
    ensures Valid(DeleteLocalEntries(s, localIds))
  {
    var deletable := Without(localIds, s.favorites);
    if |deletable| > 0 {
      var s1 := RemoveEntryIdsFromBuckets(s, deletable);
      RemoveKeepsLayout(s, deletable);
      var s2 := SetEntryOrder(s1, Without(ReadOrder(s1), deletable));
      assert OrderConsistent(s2);
      var r := DeleteLocalEntries(s, localIds);
      assert r == Commit(DropBindings(s2, deletable));
      SameFieldsValid(s2, r);
    }
  }

  /** `deleteEntries` keeps a valid store valid. */
  lemma DeleteKeepsValid(s: Store, ids: seq<string>)
    requires Valid(s)
    ensures Valid(DeleteEntries(s, ids))
  {
    EnsureMigratedKeepsValid(s);
    DeleteLocalKeepsValid(EnsureMigrated(s), LocalIds(ids));
  }

  /** Deleting the one entry that was just appended restores the records before the append. */
  lemma DeleteAppendedRecords(m: Store, c: Store, e: Entry)
    requires AppendedEntry(m, c, e) && !HasRecord(m, e.id) && e.id !in c.favorites
    ensures var r := DeleteLocalEntries(c, [e.id]);
      && (forall x :: HasRecord(r, x) <==> HasRecord(m, x))
      && (forall x :: HasRecord(m, x) ==> Lookup(r, x) == Lookup(m, x))
  {
    var r := DeleteLocalEntries(c, [e.id]);
    assert !HasRecord(r, e.id);
    forall x | x != e.id
      ensures (HasRecord(r, x) <==> HasRecord(m, x)) && (HasRecord(m, x) ==> Lookup(r, x) == Lookup(m, x))
    {
      assert x !in [e.id];
    }
  }

  /** Deleting the one entry that was just appended restores the order before the append. */
  lemma DeleteAppendedOrder(m: Store, c: Store, e: Entry)
    requires AppendedEntry(m, c, e) && NoDup(ReadOrder(m)) && e.id !in ReadOrder(m) && e.id !in c.favorites
    ensures ReadOrder(DeleteLocalEntries(c, [e.id])) == ReadOrder(m)
  {
    AppendNoDup(ReadOrder(m), e.id);
    DeleteOrder(c, [e.id]);
    WithoutAppendDropped(ReadOrder(m), e.id, [e.id]);
  }

  /** Deleting an entry that was just created (and not made a favourite) restores the stored
      records and the order of the store it was created in. */
  lemma CreateThenDelete(m: Store, content: string, hash: Hasher, now: int, limiter: LocalItemLimiter)
    requires m.migrated && Valid(m) && !HasRecord(m, hash(content)) && hash(content) !in m.favorites
    ensures var r := DeleteEntries(AddLocalEntry(m, content, hash, now, None, limiter), [hash(content)]);
      && (forall x :: HasRecord(r, x) <==> HasRecord(m, x))
      && (forall x :: HasRecord(m, x) ==> Lookup(r, x) == Lookup(m, x))
      && ReadOrder(r) == ReadOrder(m)
  {
    var id := hash(content);
    var c := AddLocalEntry(m, content, hash, now, None, limiter);
    AppendStep(m, content, hash, now, limiter);
    DigestIsLocal(id);
    assert LocalIds([id]) == [id];
    DeleteAppendedRecords(m, c, Entry(id, now, now, content));
    DeleteAppendedOrder(m, c, Entry(id, now, now, content));
  }
}

=== FILE: entry.dfy ===
/** Entries, entry ids and the collaborators the store receives from outside: the content hash
    and the local item limit. */
module EntryModel {
  import opened Seqs

  /** One clipboard item. Local ids are the sha256 hex digest of the content; cloud ids are UUIDs. */
  datatype Entry = Entry(id: string, createdAt: int, copiedAt: int, content: string)

  /** A keyboard command bound to an entry. */
  datatype EntryCommand = EntryCommand(commandName: string, entryId: string)

  /** Where `createEntry` is asked to put a new entry. */
  datatype StorageLocation = Local | Cloud

  /** A UUID has 36 characters; the id's length is the only thing that tells cloud entries apart. */
  const CloudIdLength := 36

  predicate IsCloudId(id: string) {
    |id| == CloudIdLength
  }

  predicate IsLowerHexDigit(c: char) {
    '0' <= c <= '9' || 'a' <= c <= 'f'
  }

  /** Output of `createHash("sha256").update(content).digest("hex")`: 64 lower-case hex digits. */
  type HexDigest = s: string | |s| == 64 && forall i :: 0 <= i < |s| ==> IsLowerHexDigit(s[i])
    witness seq(64, _ => '0')

  /** The content hash, supplied by the caller (the crypto library is outside the model). */
  type Hasher = string -> HexDigest

  /** A digest never has the length of a UUID, so local entries are never taken for cloud ones. */
  lemma DigestIsLocal(h: HexDigest)
    ensures !IsCloudId(h)
  {
  }

  /** The ids of a list of entries, in order (`entries.map((entry) => entry.id)`). */
  function Ids(entries: seq<Entry>): (ids: seq<string>)
    ensures |ids| == |entries|
    ensures forall i :: 0 <= i < |entries| ==> ids[i] == entries[i].id
  {
    seq(|entries|, i requires 0 <= i < |entries| => entries[i].id)
  }

  /** `applyLocalItemLimit(entries, settings, favoriteEntryIds)` returns the entries to keep and the
      ids it skipped. Its eviction policy is not part of this model: it is a parameter. */
  type LocalItemLimiter = (seq<Entry>, int, seq<string>) -> (seq<Entry>, seq<string>)

  /** What the store needs of a limiter to stay consistent: it keeps only entries it was given,
      and of those it keeps exactly the ones whose ids it did not skip. */
  ghost predicate LimiterPartitions(limiter: LocalItemLimiter) {
    forall entries, limit, favorites ::
      var (kept, skipped) := limiter(entries, limit, favorites);
      && (forall e :: e in kept ==> e in entries)
      && (forall e :: e in entries ==> (e in kept <==> e.id !in skipped))
  }
}

=== FILE: migration.dfy ===
/** The snapshot writer, the one-time migration from the legacy flat list, and `getEntries`
    (utils/storage.ts). The migration is memoised in a process-wide promise; here that promise is
    the `migrated` flag, set before the body runs, exactly as the promise is stored before it
    settles. */
module Migration {
  import opened Wrappers
  import opened Seqs
  import opened OrderDedup
  import opened EntryModel
  import opened Shards

  /** The bucket updates of a snapshot: a fresh bucket per prefix of the given entries, and an
      empty bucket (a deletion) for every other prefix in the existing index. */
  function SnapshotUpdates(s: Store, entries: seq<Entry>): (updates: map<string, Bucket>)
    ensures forall p :: p in ReadIndex(s) ==> p in updates
    ensures forall p :: p in updates ==> (updates[p] != map[] <==> p in GroupByPrefix(entries))
    ensures forall p :: p in GroupByPrefix(entries) ==> p in updates && updates[p] == GroupByPrefix(entries)[p]
    ensures updates.Keys == ReadIndex(s) + GroupByPrefix(entries).Keys
  {
    var grouped := GroupByPrefix(entries);
    grouped + map p | p in ReadIndex(s) && p !in grouped :: map[]
  }

  /** `writeEntriesSnapshot(entries, { skipEnsure: true })`: replace the whole collection by
      `entries`, then write their order, update the badge and bump the version. */
  function WriteSnapshotBody(s: Store, entries: seq<Entry>): (r: Store)
    ensures r.version == s.version + 1
    ensures r.badge == |ReadOrder(r)|
    ensures ReadOrder(r) == Dedup(Ids(entries))
    ensures r.legacy == s.legacy && r.favorites == s.favorites && r.tags == s.tags
    ensures r.commands == s.commands && r.migrated == s.migrated
  {
    var s1 := PersistBuckets(s, SnapshotUpdates(s, entries));
    var s2 := SetEntryOrder(s1, Ids(entries));
    s2.(badge := |ReadOrder(s2)|, version := s2.version + 1)
  }

  /** After a snapshot over a store whose index names all its buckets, the buckets are exactly
      the grouped entries and the index names them. */
  lemma SnapshotBuckets(s: Store, entries: seq<Entry>)
    requires IndexConsistent(s)
    ensures var s1 := PersistBuckets(s, SnapshotUpdates(s, entries));
      s1.buckets == GroupByPrefix(entries) && IndexConsistent(s1)
  {
    var grouped := GroupByPrefix(entries);
    var updates := SnapshotUpdates(s, entries);
    var s1 := PersistBuckets(s, updates);
    assert s1.buckets.Keys == grouped.Keys;
    assert s1.buckets == grouped;
  }

  /** Exactly the ids of the grouped entries have a bucket entry under their own prefix. */
  lemma GroupedIds(entries: seq<Entry>, id: string)
    ensures var g := GroupByPrefix(entries); var p := EntryHashPrefix(id);
      (p in g && id in g[p]) <==> id in Ids(entries)
  {
    var g := GroupByPrefix(entries);
    var p := EntryHashPrefix(id);
    GroupByPrefixLastWins(entries);
    if id in Ids(entries) {
      var i :| 0 <= i < |entries| && Ids(entries)[i] == id;
      assert entries[i].id == id;
    }
    if p in g && id in g[p] {
      GroupByPrefixFrom(entries, p, id);
      var i :| 0 <= i < |entries| && entries[i] == g[p][id];
      assert Ids(entries)[i] == id;
    }
  }

  /** A store whose buckets are the grouped entries holds exactly those entries, correctly placed,
      the last one winning for a repeated id. */
  lemma GroupedStore(t: Store, entries: seq<Entry>)
    requires t.buckets == GroupByPrefix(entries)
    ensures WellPlaced(t) && NoEmptyBuckets(t)
    ensures forall id :: HasRecord(t, id) <==> id in Ids(entries)
    ensures forall i :: 0 <= i < |entries| && (forall j :: i < j < |entries| ==> entries[j].id != entries[i].id) ==>
      HasRecord(t, entries[i].id) && Lookup(t, entries[i].id) == entries[i]
  {
    GroupedStorePlaced(t, entries);
    GroupedStoreIds(t, entries);
    GroupedStoreLast(t, entries);
  }

  lemma GroupedStorePlaced(t: Store, entries: seq<Entry>)
    requires t.buckets == GroupByPrefix(entries)
    ensures WellPlaced(t) && NoEmptyBuckets(t)
  {
  }

  lemma GroupedStoreIds(t: Store, entries: seq<Entry>)
    requires t.buckets == GroupByPrefix(entries)
    ensures forall id :: HasRecord(t, id) <==> id in Ids(entries)
  {
    forall id ensures HasRecord(t, id) <==> id in Ids(entries) {
      GroupedIds(entries, id);
    }
  }

  lemma GroupedStoreLast(t: Store, entries: seq<Entry>)
    requires t.buckets == GroupByPrefix(entries)
    ensures forall i :: 0 <= i < |entries| && (forall j :: i < j < |entries| ==> entries[j].id != entries[i].id) ==>
      HasRecord(t, entries[i].id) && Lookup(t, entries[i].id) == entries[i]
  {
    GroupByPrefixLastWins(entries);
  }

  /** The snapshot's bucket and index effects, stated on the stored fields alone. */
  lemma SnapshotFields(s: Store, entries: seq<Entry>)
    requires IndexConsistent(s)
    ensures var r := WriteSnapshotBody(s, entries);
      r.buckets == GroupByPrefix(entries) && IndexConsistent(r)
  {
    SnapshotBuckets(s, entries);
  }

  /** The store is valid and holds exactly `entries` in their order without repeats; where an id
      repeats, the record is the last entry with that id. */
  ghost predicate HoldsExactly(r: Store, entries: seq<Entry>) {
    && Valid(r)
    && (forall id :: HasRecord(r, id) <==> id in Ids(entries))
    && ReadOrder(r) == Dedup(Ids(entries))
    && (forall i :: 0 <= i < |entries| && (forall j :: i < j < |entries| ==> entries[j].id != entries[i].id) ==>
          HasRecord(r, entries[i].id) && Lookup(r, entries[i].id) == entries[i])
  }

  /** What a store holds depends only on its buckets, index and order. */
  lemma HoldsExactlyFields(a: Store, b: Store, entries: seq<Entry>)
    requires HoldsExactly(a, entries)
    requires a.buckets == b.buckets && a.index == b.index && a.order == b.order
    ensures HoldsExactly(b, entries)
  {
    SameFieldsValid(a, b);
    SameFieldsRecords(a, b);
    assert ReadOrder(a) == ReadOrder(b);
  }

  /** After a snapshot over a store whose index names all its buckets, the store holds exactly
      the given entries. */
  lemma SnapshotContents(s: Store, entries: seq<Entry>)
    requires IndexConsistent(s)
    ensures HoldsExactly(WriteSnapshotBody(s, entries), entries)
  {
    var r := WriteSnapshotBody(s, entries);
    SnapshotFields(s, entries);
    GroupedStore(r, entries);
    assert OrderConsistent(r);
  }

  /** `migrateLegacyEntries(legacy)`: an empty legacy list is only removed; otherwise it is written
      as a snapshot (without re-entering the migration) and then removed. */
  function MigrateLegacyEntries(s: Store, legacy: seq<Entry>): (r: Store)
    ensures r.legacy == Absent
    ensures |legacy| == 0 ==> r == s.(legacy := Absent)
    ensures |legacy| > 0 ==> ReadOrder(r) == Dedup(Ids(legacy))
  {
    if |legacy| == 0 then s.(legacy := Absent)
    else WriteSnapshotBody(s, legacy).(legacy := Absent)
  }

  /** The body of the memoised migration: read the legacy key; do nothing if it is absent; remove
      it if it does not validate; migrate it otherwise. */
  function MigrationBody(s: Store): (r: Store)
    ensures r.legacy == Absent
    ensures s.legacy.Absent? ==> r == s
    ensures s.legacy.Corrupt? ==> r == s.(legacy := Absent)
  {
    match s.legacy
    case Absent => s
    case Corrupt => s.(legacy := Absent)
    case Stored(legacy) => MigrateLegacyEntries(s, legacy)
  }

  /** `ensureEntryStorageMigrated`: run the migration body the first time only. */
  function EnsureMigrated(s: Store): (r: Store)
    ensures r.migrated && r.favorites == s.favorites
    ensures s.migrated ==> r == s
    ensures !s.migrated ==> r.legacy == Absent
    ensures !s.migrated && s.legacy.Absent? ==> r == s.(migrated := true)
    ensures !s.migrated && s.legacy.Corrupt? ==> r == s.(legacy := Absent, migrated := true)
  {
    if s.migrated then s else MigrationBody(s.(migrated := true))
  }

  /** However many callers trigger the migration, the body runs once: later triggers see the
      settled flag and change nothing. */
  lemma MigrationRunsOnce(s: Store, callers: nat)
    ensures TriggerMigration(s, callers) == if callers == 0 then s else EnsureMigrated(s)
  {
    if callers > 1 {
      MigrationRunsOnce(s, callers - 1);
    }
  }

  /** `callers` successive awaits of the migration; with none, nothing runs. */
  function TriggerMigration(s: Store, callers: nat): Store {
    if callers == 0 then s else EnsureMigrated(TriggerMigration(s, callers - 1))
  }

  /** A valid non-empty legacy list ends as the whole collection: exactly its ids have records,
      each holding the last legacy entry with that id, the order is the legacy order without
      repeats, and the legacy key is gone. */
  lemma MigrationOfLegacyList(s: Store)
    requires !s.migrated && s.legacy.Stored? && |s.legacy.entries| > 0
    requires IndexConsistent(s)
    ensures EnsureMigrated(s).legacy == Absent
    ensures HoldsExactly(EnsureMigrated(s), s.legacy.entries)
  {
    var m := s.(migrated := true);
    var legacy := s.legacy.entries;
    var w := WriteSnapshotBody(m, legacy);
    assert EnsureMigrated(s) == w.(legacy := Absent);
    SnapshotContents(m, legacy);
    HoldsExactlyFields(w, w.(legacy := Absent), legacy);
  }

  /** The migration keeps a valid store valid. */
  lemma EnsureMigratedKeepsValid(s: Store)
    requires Valid(s)
    ensures Valid(EnsureMigrated(s))
  {
    if !s.migrated && s.legacy.Stored? {
      if |s.legacy.entries| > 0 {
        MigrationOfLegacyList(s);
      }
    }
  }

  /** `_setEntries(entries)`: await the migration, then write the snapshot. */
  function SetEntries(s: Store, entries: seq<Entry>): (r: Store)
    ensures r.migrated
    ensures ReadOrder(r) == Dedup(Ids(entries))
    ensures r.legacy == Absent || s.migrated
  {
    WriteSnapshotBody(EnsureMigrated(s), entries)
  }

  /** Writing entries over a valid store leaves it holding exactly those entries, so it stays
      valid. */
  lemma SetEntriesHoldsExactly(s: Store, entries: seq<Entry>)
    requires Valid(s)
    ensures HoldsExactly(SetEntries(s, entries), entries)
    ensures Valid(SetEntries(s, entries))
  {
    EnsureMigratedKeepsValid(s);
    SnapshotContents(EnsureMigrated(s), entries);
  }

  /** `getEntries()`: await the migration; if the order is empty, migrate a legacy list that has
      reappeared since; then materialise the entries of the order. A corrupt legacy value found
      here is treated as absent. */
  function GetEntries(s: Store): (res: (Store, seq<Entry>))
    ensures res.0.migrated
    ensures var m := EnsureMigrated(s);
      res.0.favorites == m.favorites && res.0.tags == m.tags && res.0.commands == m.commands
    ensures var m := EnsureMigrated(s); |ReadOrder(m)| > 0 ==> res.0 == m
    ensures var m := EnsureMigrated(s);
      |ReadOrder(m)| == 0 && !(m.legacy.Stored? && |m.legacy.entries| > 0) ==> res == (m, [])
  {
    var m := EnsureMigrated(s);
    var order := ReadOrder(m);
    if |order| == 0 then
      if m.legacy.Stored? && |m.legacy.entries| > 0 then
        var legacy := m.legacy.entries;
        var m1 := MigrateLegacyEntries(m, legacy);
        var order1 := ReadOrder(m1);
        if |order1| == 0 then (m1, legacy) else (m1, EntriesByOrder(m1, order1))
      else (m, [])
    else (m, EntriesByOrder(m, order))
  }

  /** On a valid store, `getEntries` returns the stored entries in order-index order, each once,
      and leaves the store valid. */
  lemma GetEntriesOfValid(s: Store)
    requires Valid(s)
    ensures var (r, entries) := GetEntries(s);
      && Valid(r)
      && Ids(entries) == ReadOrder(r)
      && (forall e :: e in entries ==> HasRecord(r, e.id) && Lookup(r, e.id) == e)
  {
    EnsureMigratedKeepsValid(s);
    var m := EnsureMigrated(s);
    var order := ReadOrder(m);
    if |order| == 0 && m.legacy.Stored? && |m.legacy.entries| > 0 {
      var legacy := m.legacy.entries;
      var w := WriteSnapshotBody(m, legacy);
      var m1 := MigrateLegacyEntries(m, legacy);
      assert m1 == w.(legacy := Absent);
      SnapshotContents(m, legacy);
      HoldsExactlyFields(w, m1, legacy);
      assert |ReadOrder(m1)| > 0 by {
        assert legacy[0].id in Ids(legacy);
      }
      MaterialiseValid(m1);
    } else if |order| > 0 {
      MaterialiseValid(m);
    }
  }

  /** In a valid store, materialising the order gives every stored entry once, in order. */
  lemma MaterialiseValid(s: Store)
    requires Valid(s)
    ensures var entries := EntriesByOrder(s, ReadOrder(s));
      && Ids(entries) == ReadOrder(s)
      && (forall e :: e in entries ==> HasRecord(s, e.id) && Lookup(s, e.id) == e)
  {
    var order := ReadOrder(s);
    var entries := EntriesByOrder(s, order);
    EntriesByOrderIds(s, order);
    FilterAll(id => HasRecord(s, id), order);
  }

}

=== FILE: operations.dfy ===
/** The public operations of the entry store on local entries (utils/storage.ts): `createEntry`,
    `deleteEntries` and `updateEntryContent`. Every operation first awaits the one-time migration,
    and every committed change ends by sending the order's length to the toolbar badge and bumping
    the version token (a counter here). */
module EntryStore {
  import opened Wrappers
  import opened Seqs
  import opened OrderDedup
  import opened EntryModel
  import opened Shards
  import opened Migration

  const ContentMustBeUnique := "content must be unique"

  /** `deleteEntryIdsFromEntryIdToTags(ids)` and `deleteEntryCommands(ids)`: drop the tag list and
      the command bindings of the given ids. */
  function DropBindings(s: Store, ids: seq<string>): (r: Store)
    ensures forall id :: id in r.tags <==> id in s.tags && id !in ids
    ensures forall id :: id in r.tags ==> r.tags[id] == s.tags[id]
    ensures forall c :: c in r.commands <==> c in s.commands && c.entryId !in ids
    ensures r == s.(tags := r.tags, commands := r.commands)
  {
    s.(tags := s.tags - Elements(ids), commands := Filter((c: EntryCommand) => c.entryId !in ids, s.commands))
  }

  /** The end of every committed change: the badge shows the order's length and the version moves on. */
  function Commit(s: Store): (r: Store)
    ensures r.badge == |ReadOrder(r)| && r.version == s.version + 1
    ensures r == s.(badge := r.badge, version := r.version)
  {
    s.(badge := |ReadOrder(s)|, version := s.version + 1)
  }

  // ---------------------------------------------------------------------------------------
  // createEntry

  /** Apply the configured local item limit after a new entry: the limiter's kept entries become
      the order, and the ids it skipped lose their records, tags and commands. */
  function ApplyLimit(s: Store, initialOrder: seq<string>, limit: int, favorites: seq<string>,
                      limiter: LocalItemLimiter): (res: (Store, seq<string>))
    ensures var (kept, skipped) := limiter(EntriesByOrder(s, initialOrder), limit, favorites);
      && res.1 == Ids(kept)
      && (forall x :: HasRecord(res.0, x) <==> HasRecord(s, x) && x !in skipped)
      && (forall x :: HasRecord(res.0, x) ==> Lookup(res.0, x) == Lookup(s, x))
      && (forall x :: x in res.0.tags <==> x in s.tags && x !in skipped)
      && (forall c :: c in res.0.commands <==> c in s.commands && c.entryId !in skipped)
      && res.0.order == s.order && res.0.favorites == s.favorites
    ensures forall x :: x in res.0.tags ==> res.0.tags[x] == s.tags[x]
    ensures res.0 == s.(buckets := res.0.buckets, index := res.0.index, tags := res.0.tags, commands := res.0.commands)
  {
    var (kept, skipped) := limiter(EntriesByOrder(s, initialOrder), limit, favorites);
    var s1 := if |skipped| > 0 then DropBindings(RemoveEntryIdsFromBuckets(s, skipped), skipped) else s;
    (s1, Ids(kept))
  }

  /** The local path of `createEntry(content)`, once the migration has settled: a re-copy of
      stored content only refreshes its `copiedAt`; new content gets a new entry in its bucket and
      goes to the end of the order, after which the local item limit, when configured, may evict
      entries. */
  function AddLocalEntry(m: Store, content: string, hash: Hasher, now: int,
                         localItemLimit: Option<int>, limiter: LocalItemLimiter): (r: Store)
    ensures r.migrated == m.migrated && r.badge == |ReadOrder(r)|
    ensures r.version == m.version + 1
    ensures r.favorites == m.favorites && r.legacy == m.legacy
  {
    var id := hash(content);
    var prefix := EntryHashPrefix(id);
    var bucket := ReadBucket(m, prefix);
    if id in bucket then
      Commit(PersistBuckets(m, map[prefix := bucket[id := bucket[id].(copiedAt := now)]]))
    else
      var favorites := m.favorites;
      var orderBefore := ReadOrder(m);
      var m1 := PersistBuckets(m, map[prefix := bucket[id := Entry(id, now, now, content)]]);
      var initialOrder := Remove(orderBefore, id) + [id];
      var (m2, finalOrder) :=
        if localItemLimit.Some? then ApplyLimit(m1, initialOrder, localItemLimit.value, favorites, limiter)
        else (m1, initialOrder);
      Commit(SetEntryOrder(m2, finalOrder))
  }

  /** The local path of `createEntry(content)`: the migration first, then the entry. */
  function CreateLocalEntry(s: Store, content: string, hash: Hasher, now: int,
                            localItemLimit: Option<int>, limiter: LocalItemLimiter): (r: Store)
    ensures r.migrated && r.badge == |ReadOrder(r)|
    ensures r.version > EnsureMigrated(s).version && r.favorites == EnsureMigrated(s).favorites
    ensures r.legacy == EnsureMigrated(s).legacy
    ensures s.migrated ==> r == AddLocalEntry(s, content, hash, now, localItemLimit, limiter)
  {
    AddLocalEntry(EnsureMigrated(s), content, hash, now, localItemLimit, limiter)
  }

  /** `createEntry(content, location)`. The cloud path is taken only when the cloud is asked for
      and the caller is signed in, connected and subscribed, and the cloud write succeeds; it
      leaves the local store alone. Any other case falls through to the local path.
      `cloudWriteSucceeded` stands for that whole condition. */
  function CreateEntry(s: Store, content: string, location: StorageLocation, cloudWriteSucceeded: bool,
                       hash: Hasher, now: int, localItemLimit: Option<int>, limiter: LocalItemLimiter): (r: Store)
    ensures location == Cloud && cloudWriteSucceeded ==> r == s
    ensures !(location == Cloud && cloudWriteSucceeded) ==> r.migrated
  {
    if location == Cloud && cloudWriteSucceeded then s
    else CreateLocalEntry(s, content, hash, now, localItemLimit, limiter)
  }

  // ---------------------------------------------------------------------------------------
  // deleteEntries

  /** The local handler of `deleteEntries`: favourites are protected; the remaining ids lose their
      records, their place in the order, their tags and their command bindings. Nothing is written
      when every id is a favourite. */
  function DeleteLocalEntries(s: Store, localIds: seq<string>): (r: Store)
    ensures forall id :: id in s.favorites || id !in localIds ==>
      (HasRecord(r, id) <==> HasRecord(s, id)) && (HasRecord(r, id) ==> Lookup(r, id) == Lookup(s, id))
    ensures forall id :: id in localIds && id !in s.favorites ==>
      !HasRecord(r, id) && id !in ReadOrder(r) && id !in r.tags
    ensures forall id :: id in s.favorites || id !in localIds ==>
      (id in r.tags <==> id in s.tags) && (id in r.tags ==> r.tags[id] == s.tags[id])
    ensures forall c :: c in r.commands <==> c in s.commands && (c.entryId !in localIds || c.entryId in s.favorites)
    ensures r.favorites == s.favorites && r.legacy == s.legacy && r.migrated == s.migrated
    ensures (exists id :: id in localIds && id !in s.favorites) ==>
      r.badge == |ReadOrder(r)| && r.version == s.version + 1
    ensures (forall id :: id in localIds ==> id in s.favorites) ==> r == s
  {
    var deletable := Without(localIds, s.favorites);
    if |deletable| == 0 then s
    else
      assert deletable[0] in localIds && deletable[0] !in s.favorites;
      RemoveDeletable(s, deletable)
  }

  /** The writes of the local delete handler once the deletable ids are known. */
  function RemoveDeletable(s: Store, deletable: seq<string>): (r: Store)
    ensures forall id :: HasRecord(r, id) <==> HasRecord(s, id) && id !in deletable
    ensures forall id :: HasRecord(r, id) ==> Lookup(r, id) == Lookup(s, id)
    ensures forall id :: id in ReadOrder(r) <==> id in ReadOrder(s) && id !in deletable
    ensures forall id :: id in r.tags <==> id in s.tags && id !in deletable
    ensures forall id :: id in r.tags ==> r.tags[id] == s.tags[id]
    ensures forall c :: c in r.commands <==> c in s.commands && c.entryId !in deletable
    ensures r.favorites == s.favorites && r.legacy == s.legacy && r.migrated == s.migrated
    ensures r.badge == |ReadOrder(r)| && r.version == s.version + 1
  {
    var s1 := RemoveEntryIdsFromBuckets(s, deletable);
    var s2 := SetEntryOrder(s1, Without(ReadOrder(s1), deletable));
    Commit(DropBindings(s2, deletable))
  }

  /** The local half of `handleEntryIds`' split: the ids that are not of UUID length, in order. */
  function LocalIds(ids: seq<string>): (r: seq<string>)
    ensures forall id :: id in r <==> id in ids && !IsCloudId(id)
    ensures (forall id :: id in ids ==> !IsCloudId(id)) ==> r == ids
  {
    var keep := (id: string) => !IsCloudId(id);
    if exists id :: id in ids && IsCloudId(id) then Filter(keep, ids)
    else FilterAll(keep, ids); Filter(keep, ids)
  }

  /** `deleteEntries(ids)`: ids of UUID length are cloud entries and are deleted remotely, which
      leaves the local store alone; the others go to the local handler. */
  function DeleteEntries(s: Store, ids: seq<string>): (r: Store)
    ensures r.migrated && r.favorites == EnsureMigrated(s).favorites && r.legacy == EnsureMigrated(s).legacy
    ensures var m := EnsureMigrated(s); (exists id :: id in ids && !IsCloudId(id) && id !in m.favorites) ==>
      r.badge == |ReadOrder(r)| && r.version == m.version + 1
    ensures var m := EnsureMigrated(s);
      forall id :: IsCloudId(id) || id !in ids || id in m.favorites ==>
        && (HasRecord(r, id) <==> HasRecord(m, id))
        && (HasRecord(r, id) ==> Lookup(r, id) == Lookup(m, id))
        && (id in r.tags <==> id in m.tags) && (id in r.tags ==> r.tags[id] == m.tags[id])
    ensures var m := EnsureMigrated(s);
      forall id :: id in ids && !IsCloudId(id) && id !in m.favorites ==>
        !HasRecord(r, id) && id !in ReadOrder(r) && id !in r.tags
    ensures var m := EnsureMigrated(s);
      forall c :: c in r.commands <==>
        c in m.commands && (IsCloudId(c.entryId) || c.entryId !in ids || c.entryId in m.favorites)
  {
    DeleteLocalEntries(EnsureMigrated(s), LocalIds(ids))
  }

  // ---------------------------------------------------------------------------------------
  // updateEntryContent

  /** Rename the command bindings of `oldId` to `newId`. */
  function RenameCommands(commands: seq<EntryCommand>, oldId: string, newId: string): (r: seq<EntryCommand>)
    ensures |r| == |commands|
    ensures forall i :: 0 <= i < |r| ==>
      r[i].commandName == commands[i].commandName &&
      r[i].entryId == (if commands[i].entryId == oldId then newId else commands[i].entryId)
  {
    seq(|commands|, i requires 0 <= i < |commands| =>
      if commands[i].entryId == oldId then commands[i].(entryId := newId) else commands[i])
  }

  /** Move the tag list of `oldId` to `newId` (`entryIdToTags`). */
  function RenameTags(tags: map<string, seq<string>>, oldId: string, newId: string): (r: map<string, seq<string>>)
    ensures oldId !in r
    ensures oldId in tags && oldId != newId ==> newId in r && r[newId] == tags[oldId]
    ensures forall id :: id != oldId && id != newId ==> (id in r <==> id in tags) && (id in r ==> r[id] == tags[id])
  {
    (if oldId in tags then tags[newId := tags[oldId]] else tags) - {oldId}
  }

  /** The bucket writes of a rename: the old bucket loses the entry and the new one gains it;
      one write when both ids share a prefix. */
  function RenameUpdates(s: Store, oldId: string, newId: string, updated: Entry): (updates: map<string, Bucket>)
    ensures EntryHashPrefix(oldId) in updates && EntryHashPrefix(newId) in updates
    ensures newId in updates[EntryHashPrefix(newId)] && updates[EntryHashPrefix(newId)][newId] == updated
    ensures oldId != newId ==> oldId !in updates[EntryHashPrefix(oldId)]
  {
    var oldPrefix := EntryHashPrefix(oldId);
    var newPrefix := EntryHashPrefix(newId);
    var oldBucket := ReadBucket(s, oldPrefix) - {oldId};
    if newPrefix == oldPrefix then map[oldPrefix := oldBucket[newId := updated]]
    else map[oldPrefix := oldBucket, newPrefix := ReadBucket(s, newPrefix)[newId := updated]]
  }

  /** The bucket writes of a rename keep every other id's bucket entry as it was. */
  lemma RenameUpdatesFrame(s: Store, oldId: string, newId: string, updated: Entry)
    ensures var updates := RenameUpdates(s, oldId, newId, updated);
      forall p, x :: p in updates && x != oldId && x != newId ==>
        (x in updates[p] <==> x in ReadBucket(s, p)) && (x in updates[p] ==> updates[p][x] == ReadBucket(s, p)[x])
  {
  }

  /** The local path of `updateEntryContent(entryId, content)`. */
  function UpdateLocalEntryContent(s: Store, entryId: string, content: string, hash: Hasher): (res: (Store, Result<(), string>))
    ensures res.0.migrated && res.0.legacy == EnsureMigrated(s).legacy
    ensures !HasRecord(EnsureMigrated(s), hash(content)) && HasRecord(EnsureMigrated(s), entryId) ==>
      res.0.badge == |ReadOrder(res.0)| && res.0.version == EnsureMigrated(s).version + 1
    ensures HasRecord(EnsureMigrated(s), hash(content)) ==> res == (EnsureMigrated(s), Err(ContentMustBeUnique))
    ensures !HasRecord(EnsureMigrated(s), hash(content)) ==> res.1 == Ok(())
    ensures !HasRecord(EnsureMigrated(s), hash(content)) && !HasRecord(EnsureMigrated(s), entryId) ==>
      res == (EnsureMigrated(s), Ok(()))
  {
    var m := EnsureMigrated(s);
    var newId := hash(content);
    if HasRecord(m, newId) then (m, Err(ContentMustBeUnique))
    else if !HasRecord(m, entryId) then (m, Ok(()))
    else
      var updated := Lookup(m, entryId).(id := newId, content := content);
      var m1 := PersistBuckets(m, RenameUpdates(m, entryId, newId, updated));
      var order := ReadOrder(m);
      var m2 := SetEntryOrder(m1, if entryId in order then Replace(order, entryId, newId) else order + [newId]);
      var m3 := m2.(favorites := Replace(m.favorites, entryId, newId),
                    tags := RenameTags(m.tags, entryId, newId),
                    commands := RenameCommands(m.commands, entryId, newId));
      (Commit(m3), Ok(()))
  }

  /** `updateEntryContent(entryId, content)`. A UUID-length id is a cloud entry: its rename happens
      remotely, the local store is untouched, and the caller gets the remote check's outcome,
      passed in as `cloudOutcome`. */
  function UpdateEntryContent(s: Store, entryId: string, content: string, hash: Hasher,
                              cloudOutcome: Result<(), string>): (res: (Store, Result<(), string>))
    ensures IsCloudId(entryId) ==> res == (s, cloudOutcome)
    ensures !IsCloudId(entryId) ==> res.0.migrated
  {
    if IsCloudId(entryId) then (s, cloudOutcome)
    else UpdateLocalEntryContent(s, entryId, content, hash)
  }
}

=== FILE: seqs.dfy ===
/** Sequence helpers shared by the order index and the entry store. */
module Seqs {

  /** No element occurs twice. */
  predicate NoDup<T(==)>(xs: seq<T>) {
    forall i, j :: 0 <= i < j < |xs| ==> xs[i] != xs[j]
  }

  /** The elements of `xs` that satisfy `keep`, in their original order (`Array.prototype.filter`). */
  function Filter<T(!new)>(keep: T -> bool, xs: seq<T>): (r: seq<T>)
    ensures |r| <= |xs|
    ensures forall x :: x in r <==> x in xs && keep(x)
  {
    if |xs| == 0 then []
    else if keep(xs[|xs| - 1]) then Filter(keep, xs[..|xs| - 1]) + [xs[|xs| - 1]]
    else Filter(keep, xs[..|xs| - 1])
  }

  /** Every occurrence of `x` removed. */
  function Remove<T(==,!new)>(xs: seq<T>, x: T): (r: seq<T>)
    ensures forall y :: y in r <==> y in xs && y != x
    ensures NoDup(xs) ==> NoDup(r)
    ensures x !in xs ==> r == xs
  {
    var keep := (y: T) => y != x;
    FilterNoDup(keep, xs);
    if x in xs then Filter(keep, xs)
    else FilterAll(keep, xs); Filter(keep, xs)
  }

  /** The elements of `xs` that do not occur in `drop`, in their original order
      (`xs.filter((x) => !dropSet.has(x))`). */
  function Without<T(==,!new)>(xs: seq<T>, drop: seq<T>): (r: seq<T>)
    ensures forall y :: y in r <==> y in xs && y !in drop
    ensures NoDup(xs) ==> NoDup(r)
    ensures (forall y :: y in xs ==> y !in drop) ==> r == xs
  {
    var keep := (y: T) => y !in drop;
    FilterNoDup(keep, xs);
    if exists y :: y in xs && y in drop then Filter(keep, xs)
    else FilterAll(keep, xs); Filter(keep, xs)
  }

  /** Every occurrence of `a` replaced by `b` (`order.map(id => id === a ? b : id)`). */
  function Replace<T(==,!new)>(xs: seq<T>, a: T, b: T): (r: seq<T>)
    ensures |r| == |xs|
    ensures forall i :: 0 <= i < |xs| ==> r[i] == (if xs[i] == a then b else xs[i])
    ensures forall y :: y in r <==> (y in xs && y != a) || (y == b && a in xs)
  {
    seq(|xs|, i requires 0 <= i < |xs| => if xs[i] == a then b else xs[i])
  }

  /** Renaming to a fresh name and back restores the sequence. */
  lemma ReplaceBack<T(!new)>(xs: seq<T>, a: T, b: T)
    requires b !in xs
    ensures Replace(Replace(xs, a, b), b, a) == xs
  {
  }

  /** Position of the first occurrence of `x`. */
  function IndexOf<T(==)>(xs: seq<T>, x: T): (i: nat)
    requires x in xs
    ensures i < |xs| && xs[i] == x
    ensures forall j :: 0 <= j < i ==> xs[j] != x
  {
    if xs[0] == x then 0 else 1 + IndexOf(xs[1..], x)
  }

  /** The set of elements of a sequence. */
  function Elements<T(!new)>(xs: seq<T>): (s: set<T>)
    ensures forall x :: x in s <==> x in xs
  {
    set x | x in xs
  }

  /** Filtering a duplicate-free sequence keeps it duplicate-free. */
  lemma {:induction false} FilterNoDup<T(!new)>(keep: T -> bool, xs: seq<T>)
    ensures NoDup(xs) ==> NoDup(Filter(keep, xs))
  {
    if |xs| > 0 && NoDup(xs) {
      var init := xs[..|xs| - 1];
      assert NoDup(init);
      FilterNoDup(keep, init);
      assert xs[|xs| - 1] !in init;
    }
  }

  /** Filtering by a condition every element meets keeps the sequence as it is. */
  lemma {:induction false} FilterAll<T(!new)>(keep: T -> bool, xs: seq<T>)
    requires forall x :: x in xs ==> keep(x)
    ensures Filter(keep, xs) == xs
  {
    if |xs| > 0 {
      FilterAll(keep, xs[..|xs| - 1]);
      assert xs[..|xs| - 1] + [xs[|xs| - 1]] == xs;
    }
  }

  /** A dropped element appended at the end disappears again. */
  lemma WithoutAppendDropped<T(!new)>(xs: seq<T>, x: T, drop: seq<T>)
    requires x in drop
    ensures Without(xs + [x], drop) == Without(xs, drop)
  {
    assert (xs + [x])[..|xs|] == xs;
  }

  /** Appending a fresh element keeps a sequence duplicate-free. */
  lemma AppendNoDup<T>(xs: seq<T>, x: T)
    requires NoDup(xs) && x !in xs
    ensures NoDup(xs + [x])
  {
  }

  /** Renaming an element to a fresh name keeps a duplicate-free sequence duplicate-free. */
  lemma ReplaceNoDup<T(!new)>(xs: seq<T>, a: T, b: T)
    requires NoDup(xs) && b !in xs
    ensures NoDup(Replace(xs, a, b))
  {
  }
}

=== FILE: shards.dfy ===
/** The persisted state of the entry store and its shard layer (utils/storage.ts).

    The flat key-value area is modelled as one value, one field per storage key or key family:
    a bucket per 8-character id prefix, the bucket index, the order index, the legacy flat list,
    and the version token, plus the favourites, tag and command stores the entry operations
    cascade into and the last count sent to the toolbar badge. A field holding an `Option` is a
    key that can be absent. */
module Shards {
  import opened Wrappers
  import opened Seqs
  import opened OrderDedup
  import opened EntryModel

  const EntryBucketKeyPrefix := "entryBucketV1:"
  const EntryBucketIndexKey := "entryBucketIndexV1"
  const EntryOrderKey := "entryOrderV1"
  const EntryVersionKey := "entryVersionV1"
  const LegacyEntriesKey := "entryIdSetentries"
  const EntryHashPrefixLength := 8

  /** Storage key of the bucket for `prefix` (`getBucketKey`). */
  function BucketKey(prefix: string): (key: string)
    ensures |key| == |EntryBucketKeyPrefix| + |prefix|
    ensures key[..|EntryBucketKeyPrefix|] == EntryBucketKeyPrefix && key[|EntryBucketKeyPrefix|..] == prefix
  {
    EntryBucketKeyPrefix + prefix
  }

  /** The bucket keys never collide with each other or with the single-purpose keys, so each key
      family can be modelled as a field of its own. */
  lemma KeyNamespaceDisjoint(p: string, q: string)
    ensures BucketKey(p) == BucketKey(q) ==> p == q
    ensures BucketKey(p) !in {EntryBucketIndexKey, EntryOrderKey, EntryVersionKey, LegacyEntriesKey}
  {
    if BucketKey(p) == BucketKey(q) {
      assert p == BucketKey(p)[|EntryBucketKeyPrefix|..];
    }
    assert BucketKey(p)[11] == 'V';
    assert EntryBucketIndexKey[11] == 'I';
  }

  /** `entryId.slice(0, 8)`: the shard an id lives in. */
  function EntryHashPrefix(id: string): (p: string)
    ensures |p| == if |id| < EntryHashPrefixLength then |id| else EntryHashPrefixLength
  {
    if |id| <= EntryHashPrefixLength then id else id[..EntryHashPrefixLength]
  }

  /** The shard is the id's first 8 characters, or the whole id when it is shorter. */
  lemma EntryHashPrefixIsPrefix(id: string)
    ensures var p := EntryHashPrefix(id);
      && p == id[..|p|]
      && (|id| >= EntryHashPrefixLength ==> p == id[..EntryHashPrefixLength])
      && (|id| <= EntryHashPrefixLength ==> p == id)
  {
  }

  /** Ids that agree on their first 8 characters share a shard, and ids in one shard agree on
      them. */
  lemma SameShard(a: string, b: string)
    requires |a| >= EntryHashPrefixLength && |b| >= EntryHashPrefixLength
    ensures EntryHashPrefix(a) == EntryHashPrefix(b) <==> a[..EntryHashPrefixLength] == b[..EntryHashPrefixLength]
  {
  }

  /** One shard: entries keyed by id. */
  type Bucket = map<string, Entry>

  /** The legacy flat-list key: absent, holding a list that validates as entries, or holding
      something that does not. */
  datatype LegacySlot = Absent | Stored(entries: seq<Entry>) | Corrupt

  datatype Store = Store(
    buckets: map<string, Bucket>,
    index: Option<set<string>>,
    order: Option<seq<string>>,
    legacy: LegacySlot,
    version: nat,
    favorites: seq<string>,
    tags: map<string, seq<string>>,
    commands: seq<EntryCommand>,
    badge: nat,
    migrated: bool)

  /** `getBucketIndex`: an absent key reads as the empty set. */
  function ReadIndex(s: Store): set<string> {
    s.index.GetOr({})
  }

  /** `getEntryBucket`: an absent key reads as the empty bucket. */
  function ReadBucket(s: Store, prefix: string): Bucket {
    if prefix in s.buckets then s.buckets[prefix] else map[]
  }

  /** `getEntryOrder`: an absent key reads as the empty order. */
  function ReadOrder(s: Store): seq<string> {
    s.order.GetOr([])
  }

  /** The entry has a record in the bucket its own prefix names (`entryExists`). */
  predicate HasRecord(s: Store, id: string) {
    id in ReadBucket(s, EntryHashPrefix(id))
  }

  /** The record of an id that has one (`getEntryById`). */
  function Lookup(s: Store, id: string): Entry
    requires HasRecord(s, id)
  {
    ReadBucket(s, EntryHashPrefix(id))[id]
  }

  /** The saved index reads back as what was saved; a removed index key reads as no prefixes. */
  lemma IndexReadsBack(s: Store, index: set<string>)
    ensures ReadIndex(s.(index := SavedIndex(index))) == index
    ensures ReadIndex(s.(index := None)) == {}
  {
  }

  /** A stored bucket reads back as stored; a prefix with no stored bucket reads as empty. */
  lemma BucketReadsBack(s: Store, prefix: string, bucket: Bucket)
    ensures ReadBucket(s.(buckets := s.buckets[prefix := bucket]), prefix) == bucket
    ensures prefix !in s.buckets ==> ReadBucket(s, prefix) == map[]
  {
  }

  /** A stored order reads back as stored; a removed order key reads as the empty order. */
  lemma OrderReadsBack(s: Store, order: seq<string>)
    ensures ReadOrder(s.(order := Some(order))) == order
    ensures ReadOrder(s.(order := None)) == []
  {
  }

  /** `saveBucketIndex`: an empty index removes the key. */
  function SavedIndex(index: set<string>): (v: Option<set<string>>)
    ensures v.GetOr({}) == index
    ensures v != Some({})
  {
    if index == {} then None else Some(index)
  }

  // ---------------------------------------------------------------------------------------
  // Invariants that hold at rest between operations.

  /** Every stored entry sits in the bucket named by its own id's prefix, under its own id. */
  ghost predicate WellPlaced(s: Store) {
    forall p, id :: p in s.buckets && id in s.buckets[p] ==>
      EntryHashPrefix(id) == p && s.buckets[p][id].id == id
  }

  /** Empty buckets are never persisted. */
  ghost predicate NoEmptyBuckets(s: Store) {
    forall p :: p in s.buckets ==> s.buckets[p] != map[]
  }

  /** The index names exactly the persisted buckets, and is absent rather than empty. */
  ghost predicate IndexConsistent(s: Store) {
    ReadIndex(s) == s.buckets.Keys && s.index != Some({})
  }

  /** The order lists each stored id exactly once, and is absent rather than empty. */
  ghost predicate OrderConsistent(s: Store) {
    && NoDup(ReadOrder(s))
    && s.order != Some([])
    && forall id :: id in ReadOrder(s) <==> HasRecord(s, id)
  }

  ghost predicate Valid(s: Store) {
    WellPlaced(s) && NoEmptyBuckets(s) && IndexConsistent(s) && OrderConsistent(s)
  }

  /** `entryExists` and `getEntryById` consult only the bucket of the id's own prefix; in a
      well-placed store that finds every stored entry, and the record found carries the id. */
  lemma RecordLookupComplete(s: Store, id: string)
    requires WellPlaced(s)
    ensures HasRecord(s, id) <==> exists p :: p in s.buckets && id in s.buckets[p]
    ensures HasRecord(s, id) ==> Lookup(s, id).id == id
  {
    if exists p :: p in s.buckets && id in s.buckets[p] {
      var p :| p in s.buckets && id in s.buckets[p];
      assert EntryHashPrefix(id) == p;
    }
  }

  /** Validity depends only on the buckets, the index and the order. */
  lemma SameFieldsValid(a: Store, b: Store)
    requires a.buckets == b.buckets && a.index == b.index && a.order == b.order
    requires Valid(a)
    ensures Valid(b)
  {
    SameFieldsRecords(a, b);
  }

  /** Records depend only on the buckets. */
  lemma SameFieldsRecords(a: Store, b: Store)
    requires a.buckets == b.buckets
    ensures forall id :: HasRecord(a, id) == HasRecord(b, id)
    ensures forall id :: HasRecord(a, id) ==> Lookup(a, id) == Lookup(b, id)
  {
    assert forall p :: ReadBucket(a, p) == ReadBucket(b, p);
  }

  // ---------------------------------------------------------------------------------------
  // Bucket persistence.

  /** `persistBuckets(updates)`: write every non-empty bucket and delete every empty one, adding and
      dropping their prefixes in the index; the index key is rewritten only if some prefix was
      added or dropped, and removed when the index ends up empty. */
  function PersistBuckets(s: Store, updates: map<string, Bucket>): (r: Store)
    ensures forall p :: p in updates ==> (p in r.buckets <==> updates[p] != map[])
    ensures forall p :: p in updates && updates[p] != map[] ==> r.buckets[p] == updates[p]
    ensures forall p :: p !in updates ==> ReadBucket(r, p) == ReadBucket(s, p)
    ensures forall p :: p !in updates ==> (p in r.buckets <==> p in s.buckets)
    ensures forall p :: p in ReadIndex(r) <==>
      (if p in updates then updates[p] != map[] else p in ReadIndex(s))
    ensures r.index != s.index ==>
      (exists p :: p in updates && (updates[p] == map[] <==> p in ReadIndex(s)))
    ensures r.index != s.index ==> r.index != Some({})
    ensures r == s.(buckets := r.buckets, index := r.index)
  {
    var index := ReadIndex(s);
    var newIndex := UpdatedIndex(index, updates);
    s.(buckets := MergeBuckets(s.buckets, updates), index := if newIndex == index then s.index else SavedIndex(newIndex))
  }

  /** The stored buckets after the writes and deletions of `updates`. */
  function MergeBuckets(buckets: map<string, Bucket>, updates: map<string, Bucket>): (r: map<string, Bucket>)
    ensures forall p :: p in r <==> if p in updates then updates[p] != map[] else p in buckets
    ensures forall p :: p in r ==> r[p] == if p in updates then updates[p] else buckets[p]
  {
    map p | p in buckets.Keys + updates.Keys && (p in updates ==> updates[p] != map[])
      :: if p in updates then updates[p] else buckets[p]
  }

  /** The index after the writes and deletions of `updates`. */
  function UpdatedIndex(index: set<string>, updates: map<string, Bucket>): (r: set<string>)
    ensures forall p :: p in r <==> if p in updates then updates[p] != map[] else p in index
  {
    set p | p in index + updates.Keys && (p in updates ==> updates[p] != map[])
  }

  /** Persisting buckets that hold only correctly placed entries keeps the shard layout valid. */
  lemma PersistBucketsKeepsLayout(s: Store, updates: map<string, Bucket>)
    requires WellPlaced(s) && NoEmptyBuckets(s) && IndexConsistent(s)
    requires forall p, id :: p in updates && id in updates[p] ==>
      EntryHashPrefix(id) == p && updates[p][id].id == id
    ensures var r := PersistBuckets(s, updates);
      WellPlaced(r) && NoEmptyBuckets(r) && IndexConsistent(r)
  {
    var r := PersistBuckets(s, updates);
    assert ReadIndex(r) == r.buckets.Keys;
  }

  /** A bucket read from a well-placed store, with one correctly keyed entry put in, holds only
      correctly placed entries. */
  lemma UpdatedBucketPlaced(s: Store, e: Entry)
    requires WellPlaced(s)
    ensures var p := EntryHashPrefix(e.id); var b := ReadBucket(s, p)[e.id := e];
      forall x :: x in b ==> EntryHashPrefix(x) == p && b[x].id == x
  {
    var p := EntryHashPrefix(e.id);
    forall x | x in ReadBucket(s, p)
      ensures EntryHashPrefix(x) == p && ReadBucket(s, p)[x].id == x
    {
      assert p in s.buckets;
    }
  }

  /** The buckets `removeEntryIdsFromBuckets` rewrites: each bucket that holds one of the targets,
      minus the targets. */
  function RemovalUpdates(s: Store, targets: set<string>): (updates: map<string, Bucket>)
    ensures forall p :: p in updates <==>
      exists id :: id in targets && EntryHashPrefix(id) == p && id in ReadBucket(s, p)
    ensures forall p :: p in updates ==>
      updates[p] == ReadBucket(s, p) - (set id | id in targets && EntryHashPrefix(id) == p)
  {
    var prefixes := set id | id in targets :: EntryHashPrefix(id);
    map p | p in prefixes && (exists id :: id in targets && EntryHashPrefix(id) == p && id in ReadBucket(s, p))
      :: ReadBucket(s, p) - (set id | id in targets && EntryHashPrefix(id) == p)
  }

  /** `removeEntryIdsFromBuckets(ids)`: delete each id from the bucket its prefix names; only the
      buckets that lost an entry are persisted. */
  function RemoveEntryIdsFromBuckets(s: Store, ids: seq<string>): (r: Store)
    ensures forall id :: HasRecord(r, id) <==> HasRecord(s, id) && id !in ids
    ensures forall id :: HasRecord(r, id) ==> Lookup(r, id) == Lookup(s, id)
    ensures r == s.(buckets := r.buckets, index := r.index)
  {
    var targets := Elements(ids);
    if targets == {} then s
    else
      var updates := RemovalUpdates(s, targets);
      if updates == map[] then
        RemovalOfAbsent(s, targets);
        s
      else
        RemovalRecords(s, targets);
        PersistBuckets(s, updates)
  }

  /** When no bucket holds a target, no target has a record. */
  lemma RemovalOfAbsent(s: Store, targets: set<string>)
    requires RemovalUpdates(s, targets) == map[]
    ensures forall id :: id in targets ==> !HasRecord(s, id)
  {
    forall id | id in targets ensures !HasRecord(s, id) {
      assert EntryHashPrefix(id) !in RemovalUpdates(s, targets);
    }
  }

  /** Persisting the removal updates drops exactly the targets' records and keeps the others. */
  lemma RemovalRecords(s: Store, targets: set<string>)
    ensures var r := PersistBuckets(s, RemovalUpdates(s, targets));
      && (forall id :: HasRecord(r, id) <==> HasRecord(s, id) && id !in targets)
      && (forall id :: HasRecord(r, id) ==> Lookup(r, id) == Lookup(s, id))
  {
    var updates := RemovalUpdates(s, targets);
    var r := PersistBuckets(s, updates);
    forall id
      ensures HasRecord(r, id) <==> HasRecord(s, id) && id !in targets
      ensures HasRecord(r, id) ==> Lookup(r, id) == Lookup(s, id)
    {
      var p := EntryHashPrefix(id);
      if p in updates {
        assert ReadBucket(r, p) == updates[p];
      }
    }
  }

  /** Removing ids keeps the shard layout valid. */
  lemma RemoveKeepsLayout(s: Store, ids: seq<string>)
    requires WellPlaced(s) && NoEmptyBuckets(s) && IndexConsistent(s)
    ensures var r := RemoveEntryIdsFromBuckets(s, ids);
      WellPlaced(r) && NoEmptyBuckets(r) && IndexConsistent(r)
  {
    var targets := Elements(ids);
    if targets != {} {
      var updates := RemovalUpdates(s, targets);
      if updates != map[] {
        PersistBucketsKeepsLayout(s, updates);
      }
    }
  }

  // ---------------------------------------------------------------------------------------
  // The order index.

  /** `setEntryOrder(order)`: store the order with duplicates removed, first occurrence kept;
      remove the key when nothing is left. The written order is `ReadOrder(r)`. */
  function SetEntryOrder(s: Store, order: seq<string>): (r: Store)
    ensures NoDup(ReadOrder(r))
    ensures forall id :: id in ReadOrder(r) <==> id in order
    ensures InFirstOccurrenceOrder(order, ReadOrder(r))
    ensures r.order != Some([])
    ensures r == s.(order := r.order)
  {
    DedupFirstOccurrence(order);
    var deduped := Dedup(order);
    s.(order := if |deduped| == 0 then None else Some(deduped))
  }

  /** Writing an order that is already duplicate-free stores it as given. */
  lemma SetEntryOrderOfNoDup(s: Store, order: seq<string>)
    requires NoDup(order)
    ensures ReadOrder(SetEntryOrder(s, order)) == order
  {
    DedupOfNoDup(order);
  }

  /** `getEntriesByOrder(order)`: the records of the ids in `order` that have one, in order; ids
      with no record are skipped. */
  function EntriesByOrder(s: Store, order: seq<string>): (entries: seq<Entry>)
    ensures var present := Filter(id => HasRecord(s, id), order);
      && |entries| == |present|
      && forall k :: 0 <= k < |entries| ==> HasRecord(s, present[k]) && entries[k] == Lookup(s, present[k])
  {
    if |order| == 0 then []
    else
      var id := order[|order| - 1];
      EntriesByOrder(s, order[..|order| - 1]) + (if HasRecord(s, id) then [Lookup(s, id)] else [])
  }

  /** In a well-placed store the materialised entries carry exactly the ids of `order` that have a
      record, in order. */
  lemma EntriesByOrderIds(s: Store, order: seq<string>)
    requires WellPlaced(s)
    ensures Ids(EntriesByOrder(s, order)) == Filter(id => HasRecord(s, id), order)
  {
  }

  /** The loop of `writeEntriesSnapshot` that sorts entries into fresh buckets by prefix; a later
      entry with the same id replaces an earlier one. */
  function GroupByPrefix(entries: seq<Entry>): (g: map<string, Bucket>)
    ensures forall p :: p in g ==> g[p] != map[]
    ensures forall p, id :: p in g && id in g[p] ==> EntryHashPrefix(id) == p && g[p][id].id == id
  {
    if |entries| == 0 then map[]
    else
      var g := GroupByPrefix(entries[..|entries| - 1]);
      var e := entries[|entries| - 1];
      var p := EntryHashPrefix(e.id);
      var bucket := (if p in g then g[p] else map[])[e.id := e];
      assert e.id in bucket;
      g[p := bucket]
  }

  /** Every record of the snapshot is one of the given entries. */
  lemma {:induction false} GroupByPrefixFrom(entries: seq<Entry>, p: string, id: string)
    requires var g := GroupByPrefix(entries); p in g && id in g[p]
    ensures exists k :: 0 <= k < |entries| && entries[k] == GroupByPrefix(entries)[p][id]
  {
    var n := |entries| - 1;
    var g0 := GroupByPrefix(entries[..n]);
    var e := entries[n];
    var q := EntryHashPrefix(e.id);
    var bucket := (if q in g0 then g0[q] else map[])[e.id := e];
    if p == q && id == e.id {
      assert entries[n] == GroupByPrefix(entries)[p][id];
    } else {
      assert p in g0 && id in g0[p] && GroupByPrefix(entries)[p][id] == g0[p][id];
      GroupByPrefixFrom(entries[..n], p, id);
      var k :| 0 <= k < n && entries[..n][k] == g0[p][id];
      assert entries[k] == GroupByPrefix(entries)[p][id];
    }
  }

  /** Every entry given to the snapshot lands in its prefix bucket under its id. */
  lemma {:induction false} GroupByPrefixHolds(entries: seq<Entry>, i: nat)
    requires i < |entries|
    ensures var g := GroupByPrefix(entries); var p := EntryHashPrefix(entries[i].id);
      p in g && entries[i].id in g[p]
  {
    var n := |entries| - 1;
    var g0 := GroupByPrefix(entries[..n]);
    var e := entries[n];
    var q := EntryHashPrefix(e.id);
    var bucket := (if q in g0 then g0[q] else map[])[e.id := e];
    if i < n {
      GroupByPrefixHolds(entries[..n], i);
      assert entries[..n][i] == entries[i];
      var p := EntryHashPrefix(entries[i].id);
      if p == q {
        assert entries[i].id in bucket;
      }
    }
  }

  /** An entry whose id does not repeat later in the list is the record stored under that id. */
  lemma {:induction false} GroupByPrefixLast(entries: seq<Entry>, i: nat)
    requires i < |entries|
    requires forall j :: i < j < |entries| ==> entries[j].id != entries[i].id
    ensures var g := GroupByPrefix(entries); var p := EntryHashPrefix(entries[i].id);
      p in g && entries[i].id in g[p] && g[p][entries[i].id] == entries[i]
  {
    var n := |entries| - 1;
    var init := entries[..n];
    var g0 := GroupByPrefix(init);
    var e := entries[n];
    var q := EntryHashPrefix(e.id);
    var bucket := (if q in g0 then g0[q] else map[])[e.id := e];
    if i < n {
      var x := entries[i];
      assert init[i] == x;
      assert forall j :: i < j < |init| ==> init[j].id != x.id by {
        forall j | i < j < |init| ensures init[j].id != x.id {
          assert init[j] == entries[j];
        }
      }
      GroupByPrefixLast(init, i);
      assert e.id != x.id;
      var p := EntryHashPrefix(x.id);
      assert p in g0 && x.id in g0[p] && g0[p][x.id] == x;
      if p == q {
        assert bucket[x.id] == x;
      }
    }
  }

  /** Every entry given to the snapshot lands in a bucket, and the one stored under an id is the
      last entry in the list with that id. */
  lemma GroupByPrefixLastWins(entries: seq<Entry>)
    ensures var g := GroupByPrefix(entries);
      forall i :: 0 <= i < |entries| ==>
        var p := EntryHashPrefix(entries[i].id);
        p in g && entries[i].id in g[p] &&
        ((forall j :: i < j < |entries| ==> entries[j].id != entries[i].id) ==> g[p][entries[i].id] == entries[i])
  {
    var g := GroupByPrefix(entries);
    forall i | 0 <= i < |entries|
      ensures var p := EntryHashPrefix(entries[i].id);
        p in g && entries[i].id in g[p] &&
        ((forall j :: i < j < |entries| ==> entries[j].id != entries[i].id) ==> g[p][entries[i].id] == entries[i])
    {
      GroupByPrefixHolds(entries, i);
      if forall j :: i < j < |entries| ==> entries[j].id != entries[i].id {
        GroupByPrefixLast(entries, i);
      }
    }
  }
}

=== FILE: storage_usage.dfy ===
/** The storage-usage summary (utils/storageUsage.ts): counts and sizes of the entries split into
    local and cloud ones, the timing-based performance classifiers, and the zero guard of the
    byte formatter. The byte size of a content (`new Blob([content]).size`) and the time each
    measurement took are parameters. */
module StorageUsage {
  import opened Wrappers
  import opened EntryModel

  const ChunkSize := 200
  const FastThreshold: real := 500.0
  const ModerateThreshold: real := 2000.0

  /** `StorageUsage`. Sizes and counts are whole numbers; the average and the time are not. */
  datatype Usage = Usage(
    localSize: nat,
    cloudSize: nat,
    totalSize: nat,
    itemCount: nat,
    localItemCount: nat,
    cloudItemCount: nat,
    averageItemSize: real,
    largestItemSize: nat,
    processingTime: real)

  /** The byte size of a content. */
  type SizeOf = string -> nat

  /** The time the size measurement of the entry at a given position took. */
  type Timing = nat -> real

  // ---------------------------------------------------------------------------------------
  // Reference definitions: each total stated on its own, entry by entry.

  /** Total size of the entries on one side of the cloud/local split. */
  function SizeWhere(entries: seq<Entry>, size: SizeOf, cloud: bool): nat {
    if |entries| == 0 then 0
    else
      var e := entries[|entries| - 1];
      SizeWhere(entries[..|entries| - 1], size, cloud) + (if IsCloudId(e.id) == cloud then size(e.content) else 0)
  }

  /** Number of entries on one side of the cloud/local split. */
  function CountWhere(entries: seq<Entry>, cloud: bool): nat {
    if |entries| == 0 then 0
    else CountWhere(entries[..|entries| - 1], cloud) + (if IsCloudId(entries[|entries| - 1].id) == cloud then 1 else 0)
  }

  /** The time spent measuring the local entries. */
  function LocalTime(entries: seq<Entry>, elapsed: Timing): real {
    if |entries| == 0 then 0.0
    else LocalTime(entries[..|entries| - 1], elapsed) + (if IsCloudId(entries[|entries| - 1].id) then 0.0 else elapsed(|entries| - 1))
  }

  /** The largest content size, 0 for no entries. */
  function Largest(entries: seq<Entry>, size: SizeOf): (m: nat)
    ensures forall e :: e in entries ==> size(e.content) <= m
    ensures |entries| > 0 ==> exists e :: e in entries && size(e.content) == m
    ensures |entries| == 0 ==> m == 0
  {
    if |entries| == 0 then 0
    else
      var init := entries[..|entries| - 1];
      var last := entries[|entries| - 1];
      var m0 := Largest(init, size);
      assert forall e :: e in entries ==> e in init || e == last;
      assert |init| > 0 ==> exists e :: e in init && size(e.content) == m0;
      if size(last.content) > m0 then size(last.content) else m0
  }

  /** Every entry is on exactly one side of the split. */
  lemma {:induction false} CountsPartition(entries: seq<Entry>)
    ensures CountWhere(entries, false) + CountWhere(entries, true) == |entries|
  {
    if |entries| > 0 {
      CountsPartition(entries[..|entries| - 1]);
    }
  }

  /** The cloud count is the number of entries whose id has UUID length. */
  lemma {:induction false} CloudCountIsUuidLength(entries: seq<Entry>)
    ensures CountWhere(entries, true) == |set i | 0 <= i < |entries| && |entries[i].id| == CloudIdLength|
  {
    if |entries| > 0 {
      var n := |entries| - 1;
      CloudCountIsUuidLength(entries[..n]);
      var below := set i | 0 <= i < n && |entries[..n][i].id| == CloudIdLength;
      var all := set i | 0 <= i < |entries| && |entries[i].id| == CloudIdLength;
      assert below == set i | 0 <= i < n && |entries[i].id| == CloudIdLength;
      if |entries[n].id| == CloudIdLength {
        assert all == below + {n};
      } else {
        assert all == below;
      }
    }
  }

  // ---------------------------------------------------------------------------------------
  // entriesToStorageUsage

  /** One measured entry folded into the running totals, as the inner loop does. */
  function Tally(u: Usage, e: Entry, size: SizeOf, t: real): (r: Usage) {
    var s := size(e.content);
    var u1 := u.(largestItemSize := if s > u.largestItemSize then s else u.largestItemSize);
    if IsCloudId(e.id) then u1.(cloudSize := u1.cloudSize + s, cloudItemCount := u1.cloudItemCount + 1)
    else u1.(localSize := u1.localSize + s, localItemCount := u1.localItemCount + 1,
             processingTime := u1.processingTime + t)
  }

  /** The running totals agree with the reference definitions over a prefix. */
  ghost predicate TalliedUpTo(u: Usage, entries: seq<Entry>, n: nat, size: SizeOf, elapsed: Timing)
    requires n <= |entries|
  {
    && u.localSize == SizeWhere(entries[..n], size, false)
    && u.cloudSize == SizeWhere(entries[..n], size, true)
    && u.localItemCount == CountWhere(entries[..n], false)
    && u.cloudItemCount == CountWhere(entries[..n], true)
    && u.largestItemSize == Largest(entries[..n], size)
    && u.processingTime == LocalTime(entries[..n], elapsed)
  }

  /** Tallying the next entry extends the agreement by one. */
  lemma TallyStep(u: Usage, entries: seq<Entry>, n: nat, size: SizeOf, elapsed: Timing)
    requires n < |entries| && TalliedUpTo(u, entries, n, size, elapsed)
    ensures TalliedUpTo(Tally(u, entries[n], size, elapsed(n)), entries, n + 1, size, elapsed)
  {
    assert entries[..n + 1][..n] == entries[..n];
  }

  /** The inner loop: the entries from `i` up to `end` folded into the totals, one at a time. */
  method TallyChunk(entries: seq<Entry>, size: SizeOf, elapsed: Timing, acc: Usage, i: nat, end: nat)
    returns (u: Usage)
    requires i <= end <= |entries| && TalliedUpTo(acc, entries, i, size, elapsed)
    ensures TalliedUpTo(u, entries, end, size, elapsed)
  {
    u := acc;
    var j := i;
    while j < end
      invariant i <= j <= end
      invariant TalliedUpTo(u, entries, j, size, elapsed)
    {
      TallyStep(u, entries, j, size, elapsed);
      u := Tally(u, entries[j], size, elapsed(j));
      j := j + 1;
    }
  }

  /** Totals that agree with the references over all entries, with the derived fields filled in. */
  function Summarise(u: Usage, entries: seq<Entry>, ghost size: SizeOf, ghost elapsed: Timing): (usage: Usage)
    requires TalliedUpTo(u, entries, |entries|, size, elapsed)
    ensures usage.localSize == SizeWhere(entries, size, false)
    ensures usage.cloudSize == SizeWhere(entries, size, true)
    ensures usage.totalSize == usage.localSize + usage.cloudSize
    ensures usage.localItemCount == CountWhere(entries, false)
    ensures usage.cloudItemCount == CountWhere(entries, true)
    ensures usage.itemCount == usage.localItemCount + usage.cloudItemCount == |entries|
    ensures usage.largestItemSize == Largest(entries, size)
    ensures usage.processingTime == LocalTime(entries, elapsed)
    ensures usage.averageItemSize == if |entries| > 0 then usage.totalSize as real / |entries| as real else 0.0
  {
    assert entries[..|entries|] == entries;
    CountsPartition(entries);
    var totalSize := u.localSize + u.cloudSize;
    var totalCount := u.localItemCount + u.cloudItemCount;
    Usage(
      u.localSize, u.cloudSize, totalSize, totalCount, u.localItemCount, u.cloudItemCount,
      if totalCount > 0 then totalSize as real / totalCount as real else 0.0,
      u.largestItemSize, u.processingTime)
  }

  /** `entriesToStorageUsage(entries)`: the entries are measured in chunks of 200, each once, in
      order; cloud entries are those with a UUID-length id, and only local entries add to the
      processing time. */
  method EntriesToStorageUsage(entries: seq<Entry>, size: SizeOf, elapsed: Timing) returns (usage: Usage)
    ensures usage.localSize == SizeWhere(entries, size, false)
    ensures usage.cloudSize == SizeWhere(entries, size, true)
    ensures usage.totalSize == usage.localSize + usage.cloudSize
    ensures usage.localItemCount == CountWhere(entries, false)
    ensures usage.cloudItemCount == CountWhere(entries, true)
    ensures usage.itemCount == usage.localItemCount + usage.cloudItemCount == |entries|
    ensures usage.largestItemSize == Largest(entries, size)
    ensures usage.processingTime == LocalTime(entries, elapsed)
    ensures usage.averageItemSize == if |entries| > 0 then usage.totalSize as real / |entries| as real else 0.0
  {
    var u := Usage(0, 0, 0, 0, 0, 0, 0.0, 0, 0.0);
    var done := 0;
    var i := 0;
    while i < |entries|
      invariant done == if i < |entries| then i else |entries|
      invariant TalliedUpTo(u, entries, done, size, elapsed)
      decreases |entries| - i
    {
      var end := if i + ChunkSize < |entries| then i + ChunkSize else |entries|;
      u := TallyChunk(entries, size, elapsed, u, i, end);
      i := i + ChunkSize;
      done := end;
    }
    usage := Summarise(u, entries, size, elapsed);
  }

  // ---------------------------------------------------------------------------------------
  // Performance classifiers

  datatype PerformanceColor = Green | Yellow | Red
  datatype PerformanceStatus = Minimal | Moderate | High

  /** `getPerformanceColor(usage)`. */
  function GetPerformanceColor(usage: Usage): (c: PerformanceColor)
    ensures c == Red <==> usage.processingTime > ModerateThreshold
    ensures c == Green <==> usage.processingTime <= FastThreshold
  {
    if usage.processingTime > ModerateThreshold then Red
    else if usage.processingTime > FastThreshold then Yellow
    else Green
  }

  /** `getPerformanceStatus(usage)`. */
  function GetPerformanceStatus(usage: Usage): (st: PerformanceStatus)
    ensures st == High <==> usage.processingTime > ModerateThreshold
    ensures st == Minimal <==> usage.processingTime <= FastThreshold
  {
    if usage.processingTime > ModerateThreshold then High
    else if usage.processingTime > FastThreshold then Moderate
    else Minimal
  }

  function ColorLevel(c: PerformanceColor): nat {
    match c
    case Green => 0
    case Yellow => 1
    case Red => 2
  }

  function StatusLevel(st: PerformanceStatus): nat {
    match st
    case Minimal => 0
    case Moderate => 1
    case High => 2
  }

  /** Colour and status always tell the same story, and both only grow with the time. */
  lemma ClassifiersAgreeAndGrow(u: Usage, v: Usage)
    ensures ColorLevel(GetPerformanceColor(u)) == StatusLevel(GetPerformanceStatus(u))
    ensures u.processingTime <= v.processingTime ==>
      ColorLevel(GetPerformanceColor(u)) <= ColorLevel(GetPerformanceColor(v))
  {
  }

  /** `getPerformanceScore(usage)`: the time as a fraction of the slow threshold; 0 without a
      summary. */
  function GetPerformanceScore(usage: Option<Usage>): (score: real)
    ensures usage.None? ==> score == 0.0
    ensures usage.Some? ==> score * ModerateThreshold == usage.value.processingTime
  {
    if usage.None? then 0.0 else usage.value.processingTime / ModerateThreshold
  }

  /** A score above 1 is exactly a red summary, and a score above 1/4 a non-green one. */
  lemma ScoreMatchesColor(u: Usage)
    ensures GetPerformanceScore(Some(u)) > 1.0 <==> GetPerformanceColor(u) == Red
    ensures GetPerformanceScore(Some(u)) > 0.25 <==> GetPerformanceColor(u) != Green
  {
  }

  // ---------------------------------------------------------------------------------------
  // formatBytes

  const SizeUnits := ["Bytes", "KB", "MB", "GB", "TB"]

  /** 1024 to an integer power. */
  function Pow1024(i: int): (p: real)
    ensures p > 0.0
    decreases if i < 0 then -i else i
  {
    if i == 0 then 1.0
    else if i > 0 then 1024.0 * Pow1024(i - 1)
    else Pow1024(i + 1) / 1024.0
  }

  lemma Pow1024Step(i: int)
    ensures Pow1024(i + 1) == 1024.0 * Pow1024(i)
  {
    if i < -1 {
      assert Pow1024(i) == Pow1024(i + 1) / 1024.0;
    }
  }

  lemma {:induction false} Pow1024Grows(i: int, j: int)
    requires i <= j
    ensures Pow1024(i) <= Pow1024(j)
    decreases j - i
  {
    if i < j {
      Pow1024Grows(i, j - 1);
      Pow1024Step(j - 1);
    }
  }

  /** The index `floor(log(bytes) / log(1024))` in exact arithmetic. */
  ghost predicate IsUnitIndex(bytes: real, i: int) {
    Pow1024(i) <= bytes < Pow1024(i + 1)
  }

  /** A positive size has at most one unit index. */
  lemma UnitIndexUnique(bytes: real, i: int, j: int)
    requires IsUnitIndex(bytes, i) && IsUnitIndex(bytes, j)
    ensures i == j
  {
    if i < j {
      Pow1024Grows(i + 1, j);
    } else if j < i {
      Pow1024Grows(j + 1, i);
    }
  }

  /** A positive factor can be cancelled from both sides of a comparison. */
  lemma CancelFactor(a: real, b: real, p: real)
    requires p > 0.0
    ensures a * p <= b * p ==> a <= b
    ensures a * p < b * p ==> a < b
  {
  }

  /** Scaling a size that lies in `[p, 1024p)` down by `p` lands in `[1, 1024)`. */
  lemma ScaledIntoRange(bytes: real, p: real)
    requires p > 0.0 && p <= bytes < 1024.0 * p
    ensures 1.0 <= bytes / p < 1024.0
  {
    var q := bytes / p;
    assert q * p == bytes;
    CancelFactor(1.0, q, p);
    CancelFactor(q, 1024.0, p);
  }

  /** What `formatBytes` prints: `0 Bytes`, or a scaled value followed by a unit name, where a
      missing unit is printed as `undefined`. The value is kept exact. */
  datatype ByteLabel = ZeroBytes | Scaled(value: real, unit: Option<string>)

  /** `formatBytes(bytes)` as written, with `i` the computed unit index: sizes up to 0 take the
      guard, and otherwise the unit is looked up at `i` whether or not the table has it. */
  function FormatBytesAsWritten(bytes: real, i: int): (shown: ByteLabel)
    requires bytes > 0.0 ==> IsUnitIndex(bytes, i)
    ensures shown == ZeroBytes <==> bytes <= 0.0
    ensures shown.Scaled? ==> 1.0 <= shown.value < 1024.0
    ensures shown.Scaled? ==> (shown.unit.Some? <==> 0 <= i < |SizeUnits|)
  {
    if bytes <= 0.0 then ZeroBytes
    else
      Pow1024Step(i);
      ScaledIntoRange(bytes, Pow1024(i));
      Scaled(bytes / Pow1024(i), if 0 <= i < |SizeUnits| then Some(SizeUnits[i]) else None)
  }

  /** A positive size below one byte, such as the average of one empty and one one-byte entry,
      gets unit index -1 and is printed without a unit; so is a size of 1024^5 bytes or more. */
  lemma FormatBytesLosesUnit()
    ensures IsUnitIndex(0.5, -1) && FormatBytesAsWritten(0.5, -1) == Scaled(512.0, None)
    ensures IsUnitIndex(Pow1024(5), 5) && FormatBytesAsWritten(Pow1024(5), 5) == Scaled(1.0, None)
  {
    Pow1024Step(-1);
    Pow1024Step(5);
  }

  /** The unit index clamped into the table, searched upward from `i`. */
  function UnitIndexFrom(bytes: real, i: nat): (k: nat)
    requires i < |SizeUnits|
    requires Pow1024(i) <= bytes || i == 0
    ensures i <= k < |SizeUnits|
    ensures 1.0 <= bytes < Pow1024(|SizeUnits|) ==> IsUnitIndex(bytes, k)
    ensures bytes >= Pow1024(|SizeUnits|) ==> k == |SizeUnits| - 1
    decreases |SizeUnits| - i
  {
    Pow1024Step(i);
    if i == |SizeUnits| - 1 || bytes < Pow1024(i + 1) then
      Pow1024Grows(i + 1, |SizeUnits|);
      i
    else UnitIndexFrom(bytes, i + 1)
  }

  /** `formatBytes(bytes)` with the unit index kept inside the table: below one byte the unit is
      `Bytes`, and from 1024^5 on it is `TB`. */
  function FormatBytes(bytes: real): (shown: ByteLabel)
    ensures shown == ZeroBytes <==> bytes <= 0.0
    ensures shown.Scaled? ==> shown.unit.Some? && shown.unit.value in SizeUnits
  {
    if bytes <= 0.0 then ZeroBytes
    else
      var i := UnitIndexFrom(bytes, 0);
      Scaled(bytes / Pow1024(i), Some(SizeUnits[i]))
  }

  /** Wherever the program's own index falls inside the table, the clamped formatter prints
      what the program prints. */
  lemma FormatBytesAgrees(bytes: real, i: int)
    requires bytes > 0.0 ==> IsUnitIndex(bytes, i)
    requires bytes > 0.0 ==> 0 <= i < |SizeUnits|
    ensures FormatBytes(bytes) == FormatBytesAsWritten(bytes, i)
  {
    if bytes > 0.0 {
      Pow1024Grows(0, i);
      Pow1024Grows(i + 1, |SizeUnits|);
      UnitIndexUnique(bytes, i, UnitIndexFrom(bytes, 0));
    }
  }
}

=== FILE: ttl.dfy ===
/** The time-to-live cleanup of local entries (background/messages/createTtlAlarm.ts): the unit
    tables, the periodic alarm's options, the selection of expired entries, and the check that
    re-creates a missing alarm. The clock is the `now` parameter; the alarm registry is reduced
    to whether the cleanup alarm exists. */
module TtlCleanup {
  import opened Wrappers
  import opened Seqs
  import opened EntryModel
  import opened Shards
  import opened Migration
  import opened EntryStore
  import opened DeleteProperties

  /** `LocalTtlTypeEnum`. */
  datatype LocalTtlType = Minutes | Hours | Days | Weeks | Months

  /** `LocalTtlConfig`: an amount of some unit. The amount is any number, so it is a real here. */
  datatype LocalTtlConfig = LocalTtlConfig(amount: real, unit: LocalTtlType)

  /** `chrome.alarms.AlarmCreateInfo` as the cleanup alarm uses it. */
  datatype AlarmCreateInfo = AlarmCreateInfo(when: int, periodInMinutes: real)

  const MillisecondsPerMinute := 60_000

  /** `timeUnitToMinutes`. */
  function TimeUnitToMinutes(u: LocalTtlType): (minutes: nat)
    ensures minutes >= 1
    ensures u == Minutes <==> minutes == 1
  {
    match u
    case Minutes => 1
    case Hours => 60
    case Days => 1440
    case Weeks => 10_080
    case Months => 43_200
  }

  /** `timeUnitToMilliseconds`: a separate table in the program, which agrees with the minutes
      table for every unit. */
  function TimeUnitToMilliseconds(u: LocalTtlType): (ms: nat)
    ensures ms == TimeUnitToMinutes(u) * MillisecondsPerMinute
  {
    match u
    case Minutes => 60_000
    case Hours => 3_600_000
    case Days => 86_400_000
    case Weeks => 604_800_000
    case Months => 2_592_000_000
  }

  /** Position of a unit, shortest first. */
  function Rank(u: LocalTtlType): nat {
    match u
    case Minutes => 0
    case Hours => 1
    case Days => 2
    case Weeks => 3
    case Months => 4
  }

  /** A longer unit is a longer span, in both tables. */
  lemma UnitsIncrease(u: LocalTtlType, v: LocalTtlType)
    requires Rank(u) < Rank(v)
    ensures TimeUnitToMinutes(u) < TimeUnitToMinutes(v)
    ensures TimeUnitToMilliseconds(u) < TimeUnitToMilliseconds(v)
  {
  }

  /** The TTL of a configuration in milliseconds. */
  function TtlMilliseconds(config: LocalTtlConfig): (ttl: real)
    ensures ttl == TimeUnitToMinutes(config.unit) as real * config.amount * MillisecondsPerMinute as real
  {
    TimeUnitToMilliseconds(config.unit) as real * config.amount
  }

  /** `createAlarmOptions(type, amount)`: fire now, then every `amount` units. */
  function CreateAlarmOptions(u: LocalTtlType, amount: real, now: int): (options: AlarmCreateInfo)
    ensures options.when == now
    ensures options.periodInMinutes * MillisecondsPerMinute as real == TtlMilliseconds(LocalTtlConfig(amount, u))
  {
    AlarmCreateInfo(now, TimeUnitToMinutes(u) as real * amount)
  }

  /** `createTtlAlarm(ttl)`: the alarm it registers, if any; a null config registers none. */
  function CreateTtlAlarm(ttl: Option<LocalTtlConfig>, now: int): (alarm: Option<AlarmCreateInfo>)
    ensures alarm.Some? <==> ttl.Some?
    ensures alarm.Some? ==>
      alarm.value.when == now &&
      alarm.value.periodInMinutes == TimeUnitToMinutes(ttl.value.unit) as real * ttl.value.amount
  {
    if ttl.None? then None else Some(CreateAlarmOptions(ttl.value.unit, ttl.value.amount, now))
  }

  /** `checkTtlAlarmState()`: the alarm it creates, if any. */
  function CheckTtlAlarmState(config: Option<LocalTtlConfig>, alarmExists: bool, now: int): (created: Option<AlarmCreateInfo>)
    ensures created.Some? <==> config.Some? && !alarmExists
    ensures created.Some? ==> created == CreateTtlAlarm(config, now)
  {
    if config.Some? && !alarmExists then CreateTtlAlarm(config, now) else None
  }

  /** An entry is expired once at least the TTL has passed since it was created. */
  predicate Expired(e: Entry, ttl: real, now: int) {
    (now - e.createdAt) as real >= ttl
  }

  /** The ids of the expired entries, in entry order. */
  function ExpiredIds(entries: seq<Entry>, ttl: real, now: int): (ids: seq<string>)
    ensures |ids| <= |entries|
    ensures forall e :: e in entries && Expired(e, ttl, now) ==> e.id in ids
    ensures forall i :: 0 <= i < |ids| ==> exists e :: e in entries && e.id == ids[i] && Expired(e, ttl, now)
  {
    if |entries| == 0 then []
    else
      var init := ExpiredIds(entries[..|entries| - 1], ttl, now);
      var last := entries[|entries| - 1];
      assert forall e :: e in entries ==> e in entries[..|entries| - 1] || e == last;
      if Expired(last, ttl, now) then init + [last.id] else init
  }

  /** `removeEntriesNonFavorite()`: with no TTL configured nothing happens; otherwise the entries
      are read and the expired ones, if any, are handed to `deleteEntries`. */
  function RemoveEntriesNonFavorite(s: Store, config: Option<LocalTtlConfig>, now: int): (r: Store)
    ensures config.None? ==> r == s
    ensures config.Some? ==> r.migrated && r.favorites == s.favorites
  {
    if config.None? then s
    else
      var (s1, entries) := GetEntries(s);
      var ids := ExpiredIds(entries, TtlMilliseconds(config.value), now);
      if |ids| > 0 then DeleteEntries(s1, ids) else s1
  }

  /** The selection distributes over concatenation, so it keeps the entries' order. */
  lemma {:induction false} ExpiredIdsAppend(a: seq<Entry>, b: seq<Entry>, ttl: real, now: int)
    ensures ExpiredIds(a + b, ttl, now) == ExpiredIds(a, ttl, now) + ExpiredIds(b, ttl, now)
    decreases |b|
  {
    if |b| == 0 {
      assert a + b == a;
    } else {
      var init := b[..|b| - 1];
      assert (a + b)[..|a + b| - 1] == a + init;
      ExpiredIdsAppend(a, init, ttl, now);
    }
  }

  /** The selection of a single entry. */
  lemma ExpiredIdsSingle(e: Entry, ttl: real, now: int)
    ensures ExpiredIds([e], ttl, now) == if Expired(e, ttl, now) then [e.id] else []
  {
    assert [e][..0] == [];
  }

  /** On a valid store, a cleanup removes exactly the expired local entries that are not
      favourites: every other record, favourites included, survives unchanged. */
  lemma CleanupRemovesExactlyExpired(s: Store, config: LocalTtlConfig, now: int)
    requires Valid(s)
    ensures var s1 := GetEntries(s).0; var r := RemoveEntriesNonFavorite(s, Some(config), now);
      && (forall x :: HasRecord(r, x) <==>
            HasRecord(s1, x) && (x in s.favorites || IsCloudId(x) || !Expired(Lookup(s1, x), TtlMilliseconds(config), now)))
      && (forall x :: HasRecord(r, x) ==> Lookup(r, x) == Lookup(s1, x))
  {
    GetEntriesOfValid(s);
    var (s1, entries) := GetEntries(s);
    var ttl := TtlMilliseconds(config);
    var ids := ExpiredIds(entries, ttl, now);
    var r := RemoveEntriesNonFavorite(s, Some(config), now);
    assert s1.migrated && EnsureMigrated(s1) == s1;
    forall x
      ensures HasRecord(r, x) <==>
        HasRecord(s1, x) && (x in s.favorites || IsCloudId(x) || !Expired(Lookup(s1, x), ttl, now))
      ensures HasRecord(r, x) ==> Lookup(r, x) == Lookup(s1, x)
    {
      if x in ids {
        var i :| 0 <= i < |ids| && ids[i] == x;
        var e :| e in entries && e.id == x && Expired(e, ttl, now);
        assert HasRecord(s1, x) && Lookup(s1, x) == e;
      } else if HasRecord(s1, x) {
        assert x in Ids(entries);
        var k :| 0 <= k < |entries| && Ids(entries)[k] == x;
        assert entries[k] in entries && Lookup(s1, x) == entries[k];
      }
    }
  }

  /** A cleanup keeps a valid store valid. */
  lemma CleanupKeepsValid(s: Store, config: Option<LocalTtlConfig>, now: int)
    requires Valid(s)
    ensures Valid(RemoveEntriesNonFavorite(s, config, now))
  {
    if config.Some? {
      GetEntriesOfValid(s);
      var (s1, entries) := GetEntries(s);
      var ids := ExpiredIds(entries, TtlMilliseconds(config.value), now);
      if |ids| > 0 {
        DeleteKeepsValid(s1, ids);
      }
    }
  }
}

=== FILE: update_properties.dfy ===
/** Properties of `updateEntryContent`'s local path: a rename of the entry to the hash of its new
    content, carried through every structure that refers to the old id. */
module UpdateProperties {
  import opened Wrappers
  import opened Seqs
  import opened EntryModel
  import opened Shards
  import opened Migration
  import opened EntryStore

  /** After persisting, a bucket reads as its update when it has one, and as before otherwise. */
  lemma PersistRead(s: Store, updates: map<string, Bucket>)
    ensures forall p ::
      ReadBucket(PersistBuckets(s, updates), p) == (if p in updates then updates[p] else ReadBucket(s, p))
  {
  }

  /** The bucket writes of a rename move the record from the old id to the new one. */
  lemma RenameMoves(m: Store, oldId: string, newId: string, updated: Entry)
    requires HasRecord(m, oldId) && !HasRecord(m, newId)
    ensures var m1 := PersistBuckets(m, RenameUpdates(m, oldId, newId, updated));
      && !HasRecord(m1, oldId) && HasRecord(m1, newId) && Lookup(m1, newId) == updated
  {
    PersistRead(m, RenameUpdates(m, oldId, newId, updated));
  }

  /** The bucket writes of a rename touch no other record. */
  lemma RenameKeepsOthers(m: Store, oldId: string, newId: string, updated: Entry)
    requires HasRecord(m, oldId) && !HasRecord(m, newId)
    ensures var m1 := PersistBuckets(m, RenameUpdates(m, oldId, newId, updated));
      && (forall x :: x != oldId && x != newId ==> (HasRecord(m1, x) <==> HasRecord(m, x)))
      && (forall x :: x != oldId && x != newId && HasRecord(m, x) ==> Lookup(m1, x) == Lookup(m, x))
  {
    var updates := RenameUpdates(m, oldId, newId, updated);
    PersistRead(m, updates);
    var m1 := PersistBuckets(m, updates);
    forall x | x != oldId && x != newId
      ensures x in ReadBucket(m1, EntryHashPrefix(x)) <==> x in ReadBucket(m, EntryHashPrefix(x))
      ensures x in ReadBucket(m, EntryHashPrefix(x)) ==>
        ReadBucket(m1, EntryHashPrefix(x))[x] == ReadBucket(m, EntryHashPrefix(x))[x]
    {
      var p := EntryHashPrefix(x);
      if p == EntryHashPrefix(oldId) || p == EntryHashPrefix(newId) {
        assert p in updates;
      } else {
        assert p !in updates;
      }
    }
  }

  /** The bucket writes of a rename keep the shard layout valid. */
  lemma RenameLayout(m: Store, oldId: string, newId: string, updated: Entry)
    requires WellPlaced(m) && NoEmptyBuckets(m) && IndexConsistent(m)
    requires updated.id == newId
    ensures var m1 := PersistBuckets(m, RenameUpdates(m, oldId, newId, updated));
      WellPlaced(m1) && NoEmptyBuckets(m1) && IndexConsistent(m1)
  {
    PersistBucketsKeepsLayout(m, RenameUpdates(m, oldId, newId, updated));
  }

  /** The store right after the rename's bucket writes. */
  function AfterRename(m: Store, entryId: string, newId: string, content: string): Store
    requires HasRecord(m, entryId)
  {
    PersistBuckets(m, RenameUpdates(m, entryId, newId, Lookup(m, entryId).(id := newId, content := content)))
  }

  /** A rename of a stored entry to fresh content: the record moves to the new id with its
      timestamps, every other record stays. */
  lemma UpdateMovesRecord(s: Store, entryId: string, content: string, hash: Hasher)
    requires !HasRecord(EnsureMigrated(s), hash(content)) && HasRecord(EnsureMigrated(s), entryId)
    ensures var m := EnsureMigrated(s); var res := UpdateLocalEntryContent(s, entryId, content, hash);
      var r := res.0; var newId := hash(content);
      && res.1 == Ok(())
      && !HasRecord(r, entryId) && HasRecord(r, newId)
      && Lookup(r, newId) == Lookup(m, entryId).(id := newId, content := content)
      && (forall x :: x != entryId && x != newId ==> (HasRecord(r, x) <==> HasRecord(m, x)))
      && (forall x :: x != entryId && x != newId && HasRecord(m, x) ==> Lookup(r, x) == Lookup(m, x))
  {
    var m := EnsureMigrated(s);
    var newId := hash(content);
    var updated := Lookup(m, entryId).(id := newId, content := content);
    var m1 := AfterRename(m, entryId, newId, content);
    RenameMoves(m, entryId, newId, updated);
    RenameKeepsOthers(m, entryId, newId, updated);
    SameFieldsRecords(m1, UpdateLocalEntryContent(s, entryId, content, hash).0);
  }

  /** On a consistent order, a rename puts the new id at the old id's position. */
  lemma UpdateReplacesInOrder(s: Store, entryId: string, content: string, hash: Hasher)
    requires OrderConsistent(EnsureMigrated(s))
    requires !HasRecord(EnsureMigrated(s), hash(content)) && HasRecord(EnsureMigrated(s), entryId)
    ensures var m := EnsureMigrated(s); var r := UpdateLocalEntryContent(s, entryId, content, hash).0;
      ReadOrder(r) == Replace(ReadOrder(m), entryId, hash(content))
  {
    var m := EnsureMigrated(s);
    var newId := hash(content);
    ReplaceNoDup(ReadOrder(m), entryId, newId);
    SetEntryOrderOfNoDup(AfterRename(m, entryId, newId, content), Replace(ReadOrder(m), entryId, newId));
  }

  /** A rename carries the favourite flag, the tags and the command bindings over to the new id. */
  lemma UpdateMovesBindings(s: Store, entryId: string, content: string, hash: Hasher)
    requires !HasRecord(EnsureMigrated(s), hash(content)) && HasRecord(EnsureMigrated(s), entryId)
    ensures var m := EnsureMigrated(s); var r := UpdateLocalEntryContent(s, entryId, content, hash).0;
      var newId := hash(content);
      && entryId !in r.favorites
      && (entryId in m.favorites ==> newId in r.favorites)
      && (forall x :: x != entryId && x != newId ==> (x in r.favorites <==> x in m.favorites))
      && entryId !in r.tags
      && (entryId in m.tags ==> newId in r.tags && r.tags[newId] == m.tags[entryId])
      && (forall x :: x != entryId && x != newId ==> (x in r.tags <==> x in m.tags))
      && (forall x :: x != entryId && x != newId && x in m.tags ==> r.tags[x] == m.tags[x])
      && |r.commands| == |m.commands|
      && (forall i :: 0 <= i < |m.commands| ==> r.commands[i].commandName == m.commands[i].commandName)
      && (forall i :: 0 <= i < |m.commands| && m.commands[i].entryId == entryId ==> r.commands[i].entryId == newId)
      && (forall i :: 0 <= i < |m.commands| && m.commands[i].entryId != entryId ==>
            r.commands[i].entryId == m.commands[i].entryId)
  {
  }

  /** The records after a rename are those of the order after it. */
  lemma RenameOrderConsistent(s: Store, entryId: string, content: string, hash: Hasher)
    requires Valid(EnsureMigrated(s))
    requires !HasRecord(EnsureMigrated(s), hash(content)) && HasRecord(EnsureMigrated(s), entryId)
    ensures OrderConsistent(UpdateLocalEntryContent(s, entryId, content, hash).0)
  {
    var m := EnsureMigrated(s);
    var newId := hash(content);
    var r := UpdateLocalEntryContent(s, entryId, content, hash).0;
    UpdateMovesRecord(s, entryId, content, hash);
    UpdateReplacesInOrder(s, entryId, content, hash);
    var o := ReadOrder(m);
    assert entryId in o && newId !in o;
    ReplaceNoDup(o, entryId, newId);
    assert ReadOrder(r) == Replace(o, entryId, newId);
    forall x
      ensures x in ReadOrder(r) <==> HasRecord(r, x)
    {
      if x != entryId && x != newId {
        assert HasRecord(r, x) <==> HasRecord(m, x);
      }
    }
  }

  /** A rename keeps a valid store valid. */
  lemma UpdateKeepsValid(s: Store, entryId: string, content: string, hash: Hasher)
    requires Valid(s)
    ensures Valid(UpdateLocalEntryContent(s, entryId, content, hash).0)
  {
    EnsureMigratedKeepsValid(s);
    var m := EnsureMigrated(s);
    var newId := hash(content);
    if !HasRecord(m, newId) && HasRecord(m, entryId) {
      var updated := Lookup(m, entryId).(id := newId, content := content);
      var m1 := AfterRename(m, entryId, newId, content);
      RenameLayout(m, entryId, newId, updated);
      RenameOrderConsistent(s, entryId, content, hash);
      var r := UpdateLocalEntryContent(s, entryId, content, hash).0;
      assert r.buckets == m1.buckets && r.index == m1.index;
    }
  }

  /** `r` is `m` with the entry `oldId` renamed to `newId` for `content`. */
  ghost predicate RenamedTo(m: Store, r: Store, oldId: string, newId: string, content: string) {
    && HasRecord(m, oldId)
    && r.migrated && Valid(r)
    && !HasRecord(r, oldId) && HasRecord(r, newId)
    && Lookup(r, newId) == Lookup(m, oldId).(id := newId, content := content)
    && (forall x :: x != oldId && x != newId ==> (HasRecord(r, x) <==> HasRecord(m, x)))
    && (forall x :: x != oldId && x != newId && HasRecord(m, x) ==> Lookup(r, x) == Lookup(m, x))
    && ReadOrder(r) == Replace(ReadOrder(m), oldId, newId)
    && r.favorites == Replace(m.favorites, oldId, newId)
  }

  /** One rename on a valid migrated store. */
  lemma RenameStep(m: Store, oldId: string, content: string, hash: Hasher)
    requires m.migrated && Valid(m) && HasRecord(m, oldId) && !HasRecord(m, hash(content))
    ensures RenamedTo(m, UpdateLocalEntryContent(m, oldId, content, hash).0, oldId, hash(content), content)
  {
    UpdateMovesRecord(m, oldId, content, hash);
    UpdateReplacesInOrder(m, oldId, content, hash);
    UpdateKeepsValid(m, oldId, content, hash);
  }

  /** Renaming an entry to fresh content and back again restores its record. */
  lemma RenameBack(m: Store, r1: Store, r2: Store, a: string, b: string, ha: string, hb: string)
    requires RenamedTo(m, r1, ha, hb, b) && RenamedTo(r1, r2, hb, ha, a)
    requires Lookup(m, ha).content == a && Lookup(m, ha).id == ha && ha != hb && !HasRecord(m, hb)
    requires hb !in ReadOrder(m)
    ensures forall x :: HasRecord(r2, x) <==> HasRecord(m, x)
    ensures forall x :: HasRecord(m, x) ==> Lookup(r2, x) == Lookup(m, x)
    ensures ReadOrder(r2) == ReadOrder(m)
    ensures hb !in m.favorites ==> r2.favorites == m.favorites
  {
    ReplaceBack(ReadOrder(m), ha, hb);
    if hb !in m.favorites {
      ReplaceBack(m.favorites, ha, hb);
    }
  }

  /** Editing an entry's content and then editing it back gives the store its records, order and
      favourites back: the id follows the content, and the timestamps stay with the entry. */
  lemma UpdateRoundTrip(m: Store, a: string, b: string, hash: Hasher)
    requires m.migrated && Valid(m)
    requires HasRecord(m, hash(a)) && Lookup(m, hash(a)).content == a && !HasRecord(m, hash(b))
    ensures var r1 := UpdateLocalEntryContent(m, hash(a), b, hash).0;
      var r2 := UpdateLocalEntryContent(r1, hash(b), a, hash).0;
      && (forall x :: HasRecord(r2, x) <==> HasRecord(m, x))
      && (forall x :: HasRecord(m, x) ==> Lookup(r2, x) == Lookup(m, x))
      && ReadOrder(r2) == ReadOrder(m)
      && (hash(b) !in m.favorites ==> r2.favorites == m.favorites)
  {
    var r1 := UpdateLocalEntryContent(m, hash(a), b, hash).0;
    RenameStep(m, hash(a), b, hash);
    RenameStep(r1, hash(b), a, hash);
    RenameBack(m, r1, UpdateLocalEntryContent(r1, hash(b), a, hash).0, a, b, hash(a), hash(b));
  }
}

=== FILE: wrappers.dfy ===
/** Optional values and success/failure results, used for storage keys that may be absent
    and for the caller-visible "content must be unique" failure. */
module Wrappers {

  /** A value that may be missing: an absent storage key, `undefined` or `null`. */
  datatype Option<+T> = None | Some(value: T) {

    /** The value, or `default` when there is none. */
    function GetOr(default: T): T {
      match this
      case Some(v) => v
      case None => default
    }
  }

  /** The outcome of an operation that reports a recoverable failure instead of throwing. */
  datatype Result<+R, +E> = Ok(value: R) | Err(error: E)
}
